=== FILE: README.md ===
# Shopware admin MCP server — a Dafny model

This project models the core of an MCP server that gives an AI assistant tools over a Shopware
shop's Admin API, plus the small app server that binds a shop to an access token.

- **Serializer** (`Reducer`, `Replies`): `serializeLLM` and `reduceEntity`. These strip
  `extensions`, `_uniqueIdentifier` and `apiAlias` from an entity, or from every item of a
  `{data: [...]}` envelope. The code reduces one level only, and so does the model. JavaScript's
  failure modes appear as `Failure("TypeError")`: deleting a property of `null`, `"data" in` a
  primitive, iterating a non-array `data`.
- **Search criteria** (`Dal`): the parts of the SDK's `Criteria` the tools use. Builders are
  append-only. `Holds` and `Selects` give the meaning of a filter over a record.
- **Tax helper** (`TaxHelper`): looks up a tax by rate, or creates one when there is none.
  Both the code as written and a corrected version are modelled (see Findings).
- **Tools**: each tool is a pure function. The repository calls it receives are inputs: search
  hits, the outcome of a write (`WriteResult`), and fresh ids. Its outputs are the request it
  issues and the reply text it returns. The tool modules are:
  - `ProductTools`, `OrderTools`, `SalesChannelTools`, `GeneralTools` and `ThemeTools`, for `src/tools/*`;
  - `McpProductTools`, `McpSalesChannelTools` and `McpCategoryTools`, for the per-shop server of `src/mcp/tools/*`;
  - `McpAgentTools`, for the inline agent in `src/mcp/index.ts`.
- **Session binding** (`AppServer`):
  - the activate and deactivate hooks write `auth_<token>` and `reverse_<shop>` into a key-value store;
  - POST /authorize reads the store to complete an OAuth grant;
  - the configuration iframe shows the token.

Strings are `seq<char>`. JSON values are the `Json` datatype, and JSON objects are maps, so key
order is not modelled. Numbers are integers.

## Model

| member | source | states |
|---|---|---|
| Reducer.ReduceEntity | src/shopware.ts:15-20 | null fails with a TypeError; an object loses exactly the three volatile keys and keeps every other value; any other value passes unchanged |
| Reducer.ReduceItems | src/shopware.ts:3-6 | the item loop succeeds iff no item is null, and then yields each item's reduction in place |
| Reducer.SerializeLLM | src/shopware.ts:2-12 | a non-envelope object or an array is reduced; a primitive fails; an envelope keeps its own keys and values except `data`; an array `data` has its items reduced and counted the same, and fails iff some item is null; a string `data` leaves the value unchanged; any other `data` fails |
| Reducer.ReduceRemovesExactlyVolatile | src/shopware.ts:15-20 | a key survives reduction iff it was present and is not volatile, with its value |
| Reducer.ReduceIsShallow | src/shopware.ts:15-20 | example: a nested child keeps its own `apiAlias`, so the reduction is one level deep |
| Reducer.ReduceIdempotent | src/shopware.ts:15-20 | reducing twice is reducing once |
| Reducer.ReduceItemsIdempotent | src/shopware.ts:3-6 | reducing every item twice is reducing them once |
| Reducer.EnvelopeItemsReduced | src/shopware.ts:3-8 | item i of an envelope's output is the reduction of item i |
| Reducer.EnvelopeKeysNotStripped | src/shopware.ts:3-8 | example: an envelope's own `apiAlias` is kept |
| Reducer.SerializeIdempotent | src/shopware.ts:2-12 | serializing a serialized value changes nothing |
| Reducer.StripAll | src/shopware.ts:3-6 | each object loses the volatile keys, position by position |
| Reducer.SerializeEnvelopeOfObjects | src/shopware.ts:3-8 | a search result of objects serializes to the same envelope with every item stripped |
| Replies.SerializedReply | src/tools/product.ts:226 | a tool replies with prefixed JSON iff serialization succeeds, and otherwise fails |
| Dal.PageIndependentOfCallOrder | src/tools/product.ts:72-79 | example: in the product-list chain (limit, fields, filter, term), setting the page last or first gives the same criteria, with the page and limit set |
| Dal.SetPageCommutes | src/tools/product.ts:72-79 | setting the page commutes with adding fields, a filter, a sorting, an association or an aggregation, and with setting the limit or the term |
| Dal.NotAndSingleNegates | src/tools/general.ts:111-124 | `not(and, [f])` holds exactly when f does not |
| TaxHelper.TaxLookupSelectsRate | src/tools/helper.ts:20-21 | the lookup criteria select a tax record iff its rate is the requested rate |
| TaxHelper.FirstWithRate | src/tools/helper.ts:23-27 | the first search hit is the lowest index with the rate; none iff no record has it |
| TaxHelper.GetOrCreateTaxByRate | src/tools/helper.ts:14-40 | as written: reuses the first match; otherwise persists a record under one fresh id and returns another |
| TaxHelper.AsWrittenReturnsUnpersistedId | src/tools/helper.ts:29-40 | when no tax has the rate, the returned id names no stored tax |
| TaxHelper.AsWrittenCounterexample | src/tools/helper.ts:29-40 | example: an empty store and rate 19 yield id "a" while "b" is stored |
| TaxHelper.ResolveTaxByRate | src/tools/helper.ts:14-40 | corrected: the returned id is stored with the requested rate; an existing match is reused and the store is unchanged |
| TaxHelper.ResolvedIdIsPersisted | src/tools/helper.ts:29-40 | the corrected helper's id is always in the store |
| TaxHelper.ResolveTaxReusesRecord | src/tools/helper.ts:23-27 | resolving the same rate again returns the same id and adds nothing |
| ProductTools.ProductListCriteria | src/tools/product.ts:72-79 | fixed fields, limit 50, the requested page; a term is set iff one is given and non-empty |
| ProductTools.ProductGetCriteria | src/tools/product.ts:107-108 | the criteria select exactly the requested id, with the detail fields |
| ProductTools.ProductGetReply | src/tools/product.ts:110-131 | no hit gives "Product not found"; otherwise the first hit serialized; a plain hit is stripped of the volatile keys |
| ProductTools.Visibilities | src/tools/product.ts:196-200 | one visibility of level 30 per sales channel id, in order |
| ProductTools.CategoryRefs | src/tools/product.ts:201-204 | one category reference per id, in order |
| ProductTools.BuildMedia | src/tools/product.ts:207-214 | one product-media row per input, with its fresh id, media id, position (default 0) and cover flag |
| ProductTools.CoverId | src/tools/product.ts:215-217 | the cover is the id of the first row marked cover, and none iff no row is marked |
| ProductTools.MediaBlockOf | src/tools/product.ts:207-217 | the media block's cover is the fresh id of the first input marked cover |
| ProductTools.ProductCreatePayloadOf | src/tools/product.ts:141-217 | the payload carries the input's fields with defaults: inactive, stock 0, system-currency net/gross price, and media only when media was given |
| ProductTools.ProductCreate | src/tools/product.ts:176-239 | as written: a reused tax is the first with the rate and the store is unchanged; a miss appends a tax under one id and the product points at the id returned; the payload carries the input; success replies with the id, a rejection with the serialized error |
| ProductTools.ProductCreateDanglingTax | src/tools/product.ts:176-239 | when no tax has the rate, the created product points at a tax id that is not in the store |
| ProductTools.ProductCreateCorrected | src/tools/product.ts:176-239 | corrected: the product points at a stored tax of the requested rate (19 by default); replies as the as-written version |
| ProductTools.CorrectedCreateIsSameIdCreate | src/tools/product.ts:176-239 | the corrected create is the as-written create whose returned and stored tax ids coincide |
| ProductTools.CreateReplyNamesId | src/tools/product.ts:231-237 | the success reply contains the new product's id |
| ProductTools.CreateMediaPresence | src/tools/product.ts:207-217 | no media input gives no media block; no cover flag gives no cover |
| ProductTools.IfTruthy | src/tools/product.ts:299-300 | a string is copied iff it is given and non-empty |
| ProductTools.ProductUpdatePayloadOf | src/tools/product.ts:296-336 | `active` and `stock` are copied when defined, even false or 0; name and description only when non-empty; visibilities, categories and media only when given |
| ProductTools.ProductUpdateOps | src/tools/product.ts:282-342 | a visibility delete and a media delete come first, only when those lists are given, each scoped to the product; the upsert is last |
| ProductTools.DeletesPrecedeUpsert | src/tools/product.ts:282-342 | every delete precedes the single upsert, and the upsert is the last operation |
| ProductTools.DeleteSelectsProductRows | src/tools/product.ts:284-324 | a delete's criteria match a row iff its `productId` is the product's id |
| ProductTools.UpdateKeepsFalsyActiveAndStock | src/tools/product.ts:296-313 | example: `active: false` and `stock: 0` are sent; empty name and description are not |
| ProductTools.ProductUpdate | src/tools/product.ts:344-353 | a successful sync replies "Product updated successfully"; a rejected one ends in a fault |
| McpProductTools.McpProductListCriteria | src/mcp/tools/product.ts:54-57 | same fields, limit and page as the `src/tools` version, and never a search term |
| McpProductTools.McpListIgnoresTerm | src/mcp/tools/product.ts:54-57 | the term input has no effect; without a term the criteria equal the `src/tools` version's |
| McpProductTools.McpProductGetCriteria | src/mcp/tools/product.ts:87-88 | the criteria select exactly the requested id, with name, description and price only |
| McpProductTools.McpProductGetReply | src/mcp/tools/product.ts:90-112 | "Product not found" iff there is no hit; otherwise the serialized first hit; a plain hit comes out stripped of the volatile keys |
| McpProductTools.McpProductCreatePayloadOf | src/mcp/tools/product.ts:137-161 | the product is always inactive; price, stock and visibilities as in the `src/tools` version |
| McpProductTools.McpCreateMatchesToolsVersion | src/mcp/tools/product.ts:142-161 | the payload agrees field by field with the `src/tools` create given `active: false` and no categories or media |
| McpProductTools.McpProductCreate | src/mcp/tools/product.ts:137-180 | the product carries the tax helper's id and the store is the one the helper leaves; the payload is the inactive payload for the input; success replies with the id and "not yet active"; a rejection replies with the serialized error |
| McpProductTools.McpCreateTaxDependsOnHelper | src/mcp/tools/product.ts:137-161 | with the corrected helper the product's tax is stored with the requested rate; with the helper of src/tools/helper.ts a miss leaves it pointing at no stored tax |
| McpProductTools.McpCreatedTextNamesId | src/mcp/tools/product.ts:176-178 | the success reply contains the new id |
| McpProductTools.McpProductUpdatePayload | src/mcp/tools/product.ts:204-209 | only id, active, and non-empty name and description are sent |
| McpProductTools.McpUpdateIsRestrictedToolsUpdate | src/mcp/tools/product.ts:204-209 | the payload equals the `src/tools` update's payload with stock, lists and media absent |
| McpProductTools.McpProductUpdate | src/mcp/tools/product.ts:204-218 | exactly one product is upserted; success replies "Product updated successfully" |
| McpAgentTools.AgentProductListCriteria | src/mcp/index.ts:36-39 | the agent's own fields, limit 50, the page, no term |
| McpAgentTools.AgentProductGetReply | src/mcp/index.ts:66-91 | the first hit is returned without stripping any key; no hit gives "Product not found" |
| McpAgentTools.GetRepliesDifferByReduction | src/mcp/index.ts:66-91 | the three get tools agree on no hit; on a plain hit the serialized reply is the agent's raw hit reduced |
| McpAgentTools.AgentProductCreate | src/mcp/index.ts:122-168 | the inline lookup reuses the first tax of the rate, or upserts one under the id it then uses; a rejected tax upsert fails the tool with no product sent; otherwise one inactive product with the input's name, product number, description, price and stock is sent, and the reply is the success text even on a rejected product upsert |
| McpAgentTools.AgentTaxLookupIsResolve | src/mcp/index.ts:122-137 | when the tax upsert is accepted, the inline lookup coincides with the corrected tax helper |
| McpAgentTools.AgentCreateSwallowsRejection | src/mcp/index.ts:157-168 | a rejected product upsert gives the same outcome as an accepted one |
| McpAgentTools.CreateShirtTwiceReusesTax | src/mcp/index.ts:122-168 | example: creating two products at rate 19 creates one tax and reuses it |
| McpAgentTools.AgentProductUpdate | src/mcp/index.ts:191-207 | exactly one payload upserted, the per-shop update payload: id and `active` copied, name and description with the input's values only when non-empty, and no other field; success replies "Product updated successfully", a rejection ends in a fault |
| McpAgentTools.AgentUpdateIsMcpUpdate | src/mcp/index.ts:191-198 | the agent's update is the per-shop update, and its payload is the `src/tools` update's payload with stock, lists and media absent |
| GeneralTools.FetchEntityList | src/tools/general.ts:12-23 | the entity names are the schema object's keys; a falsy body gives none |
| GeneralTools.FetchSingleEntitySchema | src/tools/general.ts:36-48 | a truthy entry is returned as is; a missing one gives `{}`; a null body throws |
| GeneralTools.SchemaOfListedEntity | src/tools/general.ts:12-48 | only a listed entity has a non-empty schema; for an object body a listed entity's schema is its entry, or `{}` when falsy |
| GeneralTools.ParseAggregationType | src/tools/general.ts:61-63 | a parsed aggregation type prints back as the input string |
| GeneralTools.AggregationTypeRoundTrip | src/tools/general.ts:61-63 | every aggregation type parses back from its name |
| GeneralTools.BuildAggregationNamesAndBinds | src/tools/general.ts:91-103 | each type builds an aggregation of that kind, named `order_<type>`, on the requested field |
| GeneralTools.BuildFilterMeansInput | src/tools/general.ts:108-125 | the built filter holds on a record iff the input filter's meaning does |
| GeneralTools.BuildFilters | src/tools/general.ts:108-126 | one filter per input, in order |
| GeneralTools.DalAggregate | src/tools/general.ts:86-133 | limit 1 and exactly one aggregation, wrapped as `filtered_agg` iff a filter list is given |
| GeneralTools.AggregateWrapsOnce | src/tools/general.ts:105-129 | the wrapper is applied once, carries every input filter, and each filter means its input |
| GeneralTools.AggregateResponse | src/tools/general.ts:135-145 | the response loses `data` and the volatile keys and keeps everything else |
| OrderTools.ParseStatus | src/tools/order.ts:8-13 | a parsed status prints back as the input |
| OrderTools.StatusVocabulary | src/tools/order.ts:8-13 | the accepted statuses are exactly the four, and each round-trips |
| OrderTools.OrderListCriteria | src/tools/order.ts:63-88 | newest first, limit 20, the page, the list fields; one state filter iff a status is given |
| OrderTools.OrderListSelectsStatus | src/tools/order.ts:80-87 | the criteria select an order iff its state name is the requested status, or any order when none is given |
| OrderTools.OrderDetailCriteria | src/tools/order.ts:175-211 | the criteria select exactly the requested order, with the detail fields |
| OrderTools.OrderDetailAdmitsExactlyId | src/tools/order.ts:175 | the detail criteria admit the order with the requested id, whatever its contents, and no other |
| OrderTools.ParseTransition | src/tools/order.ts:233-236 | a parsed transition prints back as the input |
| OrderTools.TransitionVocabulary | src/tools/order.ts:233-236 | the accepted transitions are exactly the four, and each round-trips |
| OrderTools.OrderUpdate | src/tools/order.ts:239-250 | one state-transition POST iff a status is given; the reply names the order unless the POST is rejected, which ends in a fault |
| OrderTools.NoStatusNoCall | src/tools/order.ts:239-250 | without a status nothing is posted and the outcome does not depend on the backend |
| OrderTools.TransitionPathDetermines | src/tools/order.ts:240 | the path determines the order id and the transition, and conversely |
| OrderTools.CancelIssuesOneCall | src/tools/order.ts:239-250 | example: cancelling posts to `/_action/order/<id>/state/cancel`, and the reply names the order |
| SalesChannelTools.SalesChannelListCriteria | src/tools/sales_channel.ts:26-39 | storefront channels only, with domains and the list fields |
| SalesChannelTools.ShapeChannel | src/tools/sales_channel.ts:48-63 | throws iff `extensions.themes` is truthy and its first entry is null; when it is absent or falsy `themeId` is kept; otherwise `themeId` is the first entry's id, or removed when there is no first entry or it has no id; `translated`, `extensions` and `themes` are dropped; every other key is kept with its value |
| SalesChannelTools.ShapeLiftsFirstTheme | src/tools/sales_channel.ts:48-63 | example: a channel with themes t1, t2 comes out with `themeId` t1 and none of the dropped keys |
| SalesChannelTools.ShapeEdgeCases | src/tools/sales_channel.ts:51-56 | example: a `themes` object clears an existing `themeId`; a null first theme throws |
| SalesChannelTools.SalesChannelListReply | src/tools/sales_channel.ts:41-72 | fails iff some channel's shaping throws; otherwise the search envelope whose items are shaped and then stripped, in order |
| SalesChannelTools.ListedChannelsAreShaped | src/tools/sales_channel.ts:48-69 | every listed channel is its shaped and stripped self, without dropped or volatile keys |
| SalesChannelTools.SalesChannelUpdatePayload | src/tools/sales_channel.ts:97-105 | `active` and `maintenance` are sent iff defined, including false; only those and the id |
| SalesChannelTools.UpdatePayloadSetsOnlyGivenFlags | src/tools/sales_channel.ts:97-105 | after the upsert a given flag has its new value and a flag not given, or any other field, keeps its old one |
| SalesChannelTools.SalesChannelUpdate | src/tools/sales_channel.ts:97-115 | exactly the payload for id, `active` and `maintenance` is upserted; success replies "Sales channel updated successfully"; a rejection ends in a fault |
| McpSalesChannelTools.McpSalesChannelListCriteria | src/mcp/tools/sales_channel.ts:13-17 | storefront channels with the short field list and no association |
| McpSalesChannelTools.McpListSelectsStorefronts | src/mcp/tools/sales_channel.ts:15-17 | a channel is selected iff its type is the storefront type |
| McpCategoryTools.CategoryListCriteria | src/mcp/tools/category.ts:22-24 | the category fields, limit 50 |
| Replies.UntranslatedListReply | src/mcp/tools/category.ts:31-40 | each listed item loses `translated` and the volatile keys and nothing else, in order; `McpCategoryTools.CategoryListReply` and `McpSalesChannelTools.McpSalesChannelListReply` (src/mcp/tools/sales_channel.ts lines 28-37) are this reply |
| McpCategoryTools.CategoryCreatePayloads | src/mcp/tools/category.ts:77-82 | one payload per input with its fresh id; active by default; a parent only when non-empty |
| McpCategoryTools.CategoryCreate | src/mcp/tools/category.ts:77-106 | success lists `{id, name}` of every created category in order; a rejection replies with the serialized error |
| McpCategoryTools.CategoryUpdatePayloads | src/mcp/tools/category.ts:139-144 | a name only when non-empty; parent and active copied when defined |
| McpCategoryTools.UpdateNameVersusParent | src/mcp/tools/category.ts:141-142 | example: an empty name is dropped but an empty parent id is sent |
| McpCategoryTools.CategoryUpdate | src/mcp/tools/category.ts:139-166 | success replies "Updated all categories successfully"; a rejection replies with the serialized error |
| McpCategoryTools.UpdateAppliesInput | src/mcp/tools/category.ts:139-147 | applied to a stored category, an update sets a non-empty name, a given parent and flag, and keeps every other field |
| McpCategoryTools.CategoryUpdateIdempotent | src/mcp/tools/category.ts:139-147 | applying the same update twice is applying it once |
| McpCategoryTools.CategoryDelete | src/mcp/tools/category.ts:184-211 | one `{id}` per requested id; success replies, without prefix, with `success`, the count and the ids |
| McpCategoryTools.DeleteReportListsDeleted | src/mcp/tools/category.ts:184-198 | the success report's count is the number of deleted rows and its ids are theirs, in order |
| McpCategoryTools.RejectedWritesReplyWithText | src/mcp/tools/category.ts:97-106 | each write tool prefixes its own error text to the stripped error object |
| ThemeTools.ThemePathRoundTrip | src/tools/theme.ts:28 | the theme id is recoverable from the request path |
| ThemeTools.ThemeConfigChange | src/tools/theme.ts:13-42 | one PATCH to the theme's reset-and-validate path with exactly the three colour settings, each the input or its default |
| ThemeTools.ThemeConfigChangeTool | src/tools/theme.ts:26-50 | the PATCH is the request above; the fixed reply text iff it is accepted; a rejection ends in a fault |
| ThemeTools.SalesChannelIdIgnored | src/tools/theme.ts:9-11 | the sales channel id does not influence the request |
| ThemeTools.DefaultColoursSent | src/tools/theme.ts:15-23 | example: without inputs the colours sent are #7a9ccd, #7a9ccd and #ffffff |
| AppServer.AuthReverseDistinct | src/app-server.ts:27-28 | a token key and a shop key never collide |
| AppServer.AuthKeyInjective | src/app-server.ts:27 | distinct tokens have distinct keys |
| AppServer.ReverseKeyInjective | src/app-server.ts:28 | distinct shops have distinct keys |
| AppServer.OnAppActivate | src/app-server.ts:23-29 | binds token to shop and shop to token, adds no other key and changes no other value |
| AppServer.OnAppDeactivate | src/app-server.ts:35-44 | with a non-empty bound token, removes exactly that token's key and the shop's key; otherwise leaves the store unchanged |
| AppServer.ActivateBindsBothWays | src/app-server.ts:23-29 | following the shop's token leads back to the shop |
| AppServer.ActivateDeactivateRoundTrip | src/app-server.ts:23-44 | activating a fresh shop and deactivating it restores the store |
| AppServer.Authorize | src/app-server.ts:168-195 | 400 iff token or state is missing or empty; then 401 iff the token is unknown; a grant names the token's shop as user and props, scope `write`, label "Shopware" |
| AppServer.MissingFieldIgnoresStore | src/app-server.ts:171-173 | the 400 answer does not depend on the store |
| AppServer.ActivatedTokenAuthorizes | src/app-server.ts:23-29 | the token handed out on activation is granted for its shop |
| AppServer.DeactivatedTokenRefused | src/app-server.ts:35-44 | after deactivation the shop's current token is refused with 401 |
| AppServer.IframeTokenJsx | src/app-server.tsx:155-158 | shows the bound token, or "" when there is none |
| AppServer.IframeTokenTemplate | src/app-server.ts:50-53 | shows the bound token, or "null" when the shop has no key |
| AppServer.IframeRenderingsAgreeWhenBound | src/app-server.ts:86 | the two iframe variants differ exactly when the shop has no key |
| AppServer.AsWrittenActivateBreaksInvariant | src/app-server.ts:23-29 | example: re-activating a bound shop leaves its old token key behind, breaking one token per shop |
| AppServer.AsWrittenStaleTokenAuthorizes | src/app-server.ts:23-44 | after two activations and a deactivation, the first token is still granted |
| AppServer.OnAppActivateRevoking | src/app-server.ts:23-44 | corrected: the previous token is revoked before the new one is bound |
| AppServer.DeactivatePreservesInvariant | src/app-server.ts:35-44 | deactivation keeps the one-token-per-shop invariant and leaves no token naming the shop |
| AppServer.RevokingActivatePreservesInvariant | src/app-server.ts:23-44 | the corrected activation keeps the invariant |

## Left out

- HTML of the iframe and of GET /authorize: presentation only. The token shown is modelled, the markup is not.
- The OAuth provider's internals, `parseAuthRequest` and `completeAuthorization`. The grant's arguments are the modelled output.
- Key-value, HTTP and repository I/O: these become inputs (store maps, search hits, `WriteResult`) and outputs (payloads, requests).
- `crypto.randomUUID`, `uuid()` and `btoa`: fresh ids and tokens are parameters.
- `JSON.parse(atob(state))` is an input `decodedState`; None stands for a throw.
- JSON text, key order and `JSON.stringify` indentation: replies carry the `Json` value, not its printed text.
- zod validation and defaults: inputs are typed. Missing optional inputs are `None`, and the schema defaults appear in the functions.
- Tool registration, the MCP transport, the Durable Object bootstrap and server wiring in `src/index.ts` and `src/mcp/index.ts`: plumbing.
- Media upload tools, `country_list` and `theme_config_get`: outside the modelled core.
- McpProductTools.McpProductCreate: `src/mcp/tools/helper.ts` is not part of this model. The helper's outcome (the tax id and the store it leaves) is an input, so nothing is promised about whether the product's tax is stored; `McpCreateTaxDependsOnHelper` spells out both candidate helpers.
- Token cache and shop/client registry: `getClient` and the shop repository are not part of this model.
- Failures of the tax upsert inside `TaxHelper` (src/tools/helper.ts): the helper is modelled as always succeeding.
- McpCategoryTools.ApplyCategoryUpdate: is how the backend's upsert is read, one field overwritten per given value; the backend itself is not part of this model.
- TaxHelper.TaxName: renders integer rates only; a fractional rate such as 7.5 is not modelled, because numbers are integers.
- ProductTools.ProductCreatePayloadOf: prices are integers, not floating point.
- SalesChannelTools.ShapeChannel: a `themes` object with a key named `length` is treated as having no length; the source would compare that key's value with 0.
- GeneralTools.FetchSingleEntitySchema: covers object bodies only. Indexing a string or array body, and inherited properties, are not modelled.
- ProductTools.ProductUpdate: a rejected sync is a `Fault`; the source lets the exception escape to the MCP layer.
- Reducer.ReduceEntity: is shallow, as the code is: a nested object keeps its volatile keys; `ReduceIsShallow` shows it.

## Findings

| source | as written | input that shows it | evidently intended | confidence | as-written member | corrected member |
|---|---|---|---|---|---|---|
| src/tools/helper.ts:29-40 | a new tax is stored under one `uuid()` and a second `uuid()` is returned | empty tax store, rate 19: the id returned is not the id stored, so the product references a missing tax | store the tax under the id that is returned | high, not executed | TaxHelper.GetOrCreateTaxByRate, ProductTools.ProductCreateDanglingTax | TaxHelper.ResolveTaxByRate, ProductTools.ProductCreateCorrected |
| src/app-server.ts:23-29 | activation writes a new token without removing the shop's previous `auth_` key | activate shop s with token a, then with token b, then deactivate s: token a is still granted for s | one live token per shop, all revoked on deactivation | medium, not executed | AppServer.AsWrittenStaleTokenAuthorizes | AppServer.OnAppActivateRevoking |

=== FILE: app_server.dfy ===
/**
 * The app-side session binding of `src/app-server.ts` (and its JSX twin `src/app-server.tsx`):
 * the activate and deactivate lifecycle hooks write the key-value store, the POST /authorize
 * handler reads it to complete an OAuth grant, and the configuration iframe shows the token.
 */
module AppServer {
  import opened Wrappers
  import opened JsonValue

  /** The key-value namespace holding the bindings; an absent key reads as null. */
  type Kv = map<string, string>

  function AuthKey(token: string): string { "auth_" + token }

  function ReverseKey(shopId: string): string { "reverse_" + shopId }

  /** A token key never collides with a shop key. */
  lemma AuthReverseDistinct(token: string, shopId: string)
    ensures AuthKey(token) != ReverseKey(shopId)
  {
    assert AuthKey(token)[0] != ReverseKey(shopId)[0];
  }

  lemma AuthKeyInjective(a: string, b: string)
    ensures AuthKey(a) == AuthKey(b) <==> a == b
  {
    assert a == AuthKey(a)[5..];
    assert b == AuthKey(b)[5..];
  }

  lemma ReverseKeyInjective(a: string, b: string)
    ensures ReverseKey(a) == ReverseKey(b) <==> a == b
  {
    assert a == ReverseKey(a)[8..];
    assert b == ReverseKey(b)[8..];
  }

  /**
   * onAppActivate: binds the fresh token to the shop in both directions. The token is
   * base64 of a random UUID and so is injected here. Nothing else is read or removed.
   */
  function OnAppActivate(kv: Kv, shopId: string, token: string): (r: Kv)
    ensures r.Keys == kv.Keys + {AuthKey(token), ReverseKey(shopId)}
    ensures r[AuthKey(token)] == shopId && r[ReverseKey(shopId)] == token
    ensures forall k :: k in kv && k != AuthKey(token) && k != ReverseKey(shopId) ==> r[k] == kv[k]
  {
    AuthReverseDistinct(token, shopId);
    kv[AuthKey(token) := shopId][ReverseKey(shopId) := token]
  }

  /** The token a shop is bound to, read as the hook's `if (authHeader)` does: empty counts as none. */
  function BoundToken(kv: Kv, shopId: string): Option<string> {
    if ReverseKey(shopId) in kv && kv[ReverseKey(shopId)] != "" then Some(kv[ReverseKey(shopId)]) else None
  }

  /**
   * onAppDeactivate: when the shop is bound to a token, removes exactly the two keys of that
   * binding; otherwise the store is left as it is.
   */
  function OnAppDeactivate(kv: Kv, shopId: string): (r: Kv)
    ensures BoundToken(kv, shopId).None? ==> r == kv
    ensures BoundToken(kv, shopId).Some? ==>
              r.Keys == kv.Keys - {AuthKey(BoundToken(kv, shopId).value), ReverseKey(shopId)}
    ensures forall k :: k in r ==> k in kv && r[k] == kv[k]
    ensures ReverseKey(shopId) in r ==> r[ReverseKey(shopId)] == ""
  {
    match BoundToken(kv, shopId)
    case None => kv
    case Some(token) => kv - {AuthKey(token), ReverseKey(shopId)}
  }

  /** After activation, the shop's token leads back to the shop. */
  lemma ActivateBindsBothWays(kv: Kv, shopId: string, token: string)
    ensures var r := OnAppActivate(kv, shopId, token);
            r[AuthKey(r[ReverseKey(shopId)])] == shopId
  {
  }

  /** Activating a fresh shop with a fresh token and then deactivating it gives back the store. */
  lemma ActivateDeactivateRoundTrip(kv: Kv, shopId: string, token: string)
    requires AuthKey(token) !in kv && ReverseKey(shopId) !in kv && token != ""
    ensures OnAppDeactivate(OnAppActivate(kv, shopId, token), shopId) == kv
  {
    var a := OnAppActivate(kv, shopId, token);
    assert BoundToken(a, shopId) == Some(token);
    var r := OnAppDeactivate(a, shopId);
    assert r.Keys == kv.Keys;
  }

  /** How the POST /authorize handler answers. */
  datatype AuthorizeResponse =
    | BadRequest(message: string)
    | Unauthorized(message: string)
    | StateUnreadable
    | Redirect(grant: Grant)

  /** The arguments handed to the OAuth provider's `completeAuthorization`. */
  datatype Grant = Grant(propsShopId: string, request: Json, userId: string, scope: seq<string>, metadataLabel: string)

  function Status(r: AuthorizeResponse): nat {
    match r
    case BadRequest(_) => 400
    case Unauthorized(_) => 401
    case StateUnreadable => 500
    case Redirect(_) => 302
  }

  /** A form field as the handler tests it: missing and empty are both falsy. */
  predicate Given(field: Option<string>) {
    field.Some? && field.value != ""
  }

  /**
   * POST /authorize. `token` and `state` are the form fields; `decodedState` is what
   * `JSON.parse(atob(state))` yields, None when either step throws.
   */
  function Authorize(kv: Kv, token: Option<string>, state: Option<string>, decodedState: Option<Json>): (r: AuthorizeResponse)
    ensures r.BadRequest? <==> !Given(token) || !Given(state)
    ensures Given(token) && Given(state) ==>
              (r.Unauthorized? <==> AuthKey(token.value) !in kv || kv[AuthKey(token.value)] == "")
    ensures r.StateUnreadable? ==> decodedState.None?
    ensures r.Redirect? ==>
              && Given(token) && AuthKey(token.value) in kv
              && r.grant.userId == kv[AuthKey(token.value)] != ""
              && r.grant.propsShopId == r.grant.userId
              && Some(r.grant.request) == decodedState
              && r.grant.scope == ["write"] && r.grant.metadataLabel == "Shopware"
  {
    if !Given(token) || !Given(state) then BadRequest("Missing token or state")
    else if AuthKey(token.value) !in kv || kv[AuthKey(token.value)] == "" then Unauthorized("Invalid token")
    else
      var shopId := kv[AuthKey(token.value)];
      match decodedState
      case None => StateUnreadable
      case Some(request) => Redirect(Grant(shopId, request, shopId, ["write"], "Shopware"))
  }

  /** A missing or empty field is refused before the store is consulted. */
  lemma MissingFieldIgnoresStore(kv1: Kv, kv2: Kv, token: Option<string>, state: Option<string>, decoded: Option<Json>)
    requires !Given(token) || !Given(state)
    ensures Authorize(kv1, token, state, decoded) == Authorize(kv2, token, state, decoded)
    ensures Status(Authorize(kv1, token, state, decoded)) == 400
  {
  }

  /** The token handed out on activation authorizes the activated shop, with write scope. */
  lemma ActivatedTokenAuthorizes(kv: Kv, shopId: string, token: string, state: string, request: Json)
    requires shopId != "" && token != "" && state != ""
    ensures Authorize(OnAppActivate(kv, shopId, token), Some(token), Some(state), Some(request))
            == Redirect(Grant(shopId, request, shopId, ["write"], "Shopware"))
  {
  }

  /** After deactivation the shop's own current token no longer authorizes. */
  lemma DeactivatedTokenRefused(kv: Kv, shopId: string, state: string, decoded: Option<Json>)
    requires BoundToken(kv, shopId).Some? && state != ""
    ensures var t := BoundToken(kv, shopId).value;
            Authorize(OnAppDeactivate(kv, shopId), Some(t), Some(state), decoded).Unauthorized?
  {
  }

  /** The iframe of `src/app-server.tsx` renders the stored token, or "" when there is none. */
  function IframeTokenJsx(kv: Kv, shopId: string): (shown: string)
    ensures BoundToken(kv, shopId).Some? ==> shown == BoundToken(kv, shopId).value
    ensures BoundToken(kv, shopId).None? ==> shown == ""
  {
    if ReverseKey(shopId) in kv then kv[ReverseKey(shopId)] else ""
  }

  /** The iframe of `src/app-server.ts` interpolates the lookup result directly: a missing token shows as "null". */
  function IframeTokenTemplate(kv: Kv, shopId: string): (shown: string)
    ensures BoundToken(kv, shopId).Some? ==> shown == BoundToken(kv, shopId).value
    ensures ReverseKey(shopId) !in kv ==> shown == "null"
  {
    if ReverseKey(shopId) in kv then kv[ReverseKey(shopId)] else "null"
  }

  /** The two renderings differ only for a shop that was never bound. */
  lemma IframeRenderingsAgreeWhenBound(kv: Kv, shopId: string)
    ensures ReverseKey(shopId) in kv <==> IframeTokenJsx(kv, shopId) == IframeTokenTemplate(kv, shopId)
  {
  }

  /**
   * Every token key leads to a shop whose reverse key leads back to that token, and no stored
   * token is empty: each tenant has at most one live token, and deactivation revokes it.
   */
  ghost predicate SessionInvariant(kv: Kv) {
    && (forall t :: AuthKey(t) in kv ==> ReverseKey(kv[AuthKey(t)]) in kv && kv[ReverseKey(kv[AuthKey(t)])] == t)
    && (forall s :: ReverseKey(s) in kv ==> kv[ReverseKey(s)] != "")
  }

  /** Re-activating a bound shop as written leaves the old token key in place, breaking the invariant. */
  lemma AsWrittenActivateBreaksInvariant()
    ensures var kv := map[AuthKey("a") := "s", ReverseKey("s") := "a"];
            SessionInvariant(kv) && !SessionInvariant(OnAppActivate(kv, "s", "b"))
  {
    var kv := map[AuthKey("a") := "s", ReverseKey("s") := "a"];
    AuthReverseDistinct("a", "s");
    forall t | AuthKey(t) in kv
      ensures ReverseKey(kv[AuthKey(t)]) in kv && kv[ReverseKey(kv[AuthKey(t)])] == t
    {
      if AuthKey(t) == ReverseKey("s") {
        AuthReverseDistinct(t, "s");
      } else {
        AuthKeyInjective(t, "a");
      }
    }
    forall s | ReverseKey(s) in kv
      ensures kv[ReverseKey(s)] != ""
    {
      if ReverseKey(s) == AuthKey("a") {
        AuthReverseDistinct("a", s);
      } else {
        ReverseKeyInjective(s, "s");
      }
    }
    var r := OnAppActivate(kv, "s", "b");
    assert AuthKey("a") != AuthKey("b") by {
      assert AuthKey("a")[5] != AuthKey("b")[5];
    }
    assert r[AuthKey("a")] == "s" && r[ReverseKey("s")] == "b";
  }

  /** The stale token of a re-activated shop still authorizes after the shop is deactivated. */
  lemma AsWrittenStaleTokenAuthorizes(kv: Kv, shopId: string, first: string, second: string, state: string, request: Json)
    requires shopId != "" && first != "" && second != "" && state != "" && first != second
    ensures var r := OnAppDeactivate(OnAppActivate(OnAppActivate(kv, shopId, first), shopId, second), shopId);
            Authorize(r, Some(first), Some(state), Some(request)) == Redirect(Grant(shopId, request, shopId, ["write"], "Shopware"))
  {
    var a1 := OnAppActivate(kv, shopId, first);
    var a2 := OnAppActivate(a1, shopId, second);
    AuthKeyInjective(first, second);
    AuthReverseDistinct(first, shopId);
    assert a2[AuthKey(first)] == shopId;
    assert BoundToken(a2, shopId) == Some(second);
    var r := OnAppDeactivate(a2, shopId);
    assert AuthKey(first) in r;
  }

  /** Activation that first revokes the shop's previous binding, so that deactivation revokes every token of the shop. */
  function OnAppActivateRevoking(kv: Kv, shopId: string, token: string): (r: Kv)
    ensures token != "" ==> BoundToken(r, shopId) == Some(token)
    ensures AuthKey(token) in r && r[AuthKey(token)] == shopId
    ensures BoundToken(kv, shopId).Some? && BoundToken(kv, shopId).value != token ==>
              AuthKey(BoundToken(kv, shopId).value) !in r
  {
    AuthKeyInjective(BoundToken(kv, shopId).GetOr(""), token);
    AuthReverseDistinct(BoundToken(kv, shopId).GetOr(""), shopId);
    OnAppActivate(OnAppDeactivate(kv, shopId), shopId, token)
  }

  /** Deactivation keeps the invariant and leaves no token that authorizes the shop. */
  lemma DeactivatePreservesInvariant(kv: Kv, shopId: string)
    requires SessionInvariant(kv)
    ensures SessionInvariant(OnAppDeactivate(kv, shopId))
    ensures forall t :: AuthKey(t) in OnAppDeactivate(kv, shopId) ==> OnAppDeactivate(kv, shopId)[AuthKey(t)] != shopId
  {
    var r := OnAppDeactivate(kv, shopId);
    match BoundToken(kv, shopId)
    case None =>
      forall t | AuthKey(t) in r
        ensures r[AuthKey(t)] != shopId
      {
        assert ReverseKey(kv[AuthKey(t)]) in kv;
      }
    case Some(bound) =>
      forall t | AuthKey(t) in r
        ensures ReverseKey(r[AuthKey(t)]) in r && r[ReverseKey(r[AuthKey(t)])] == t
        ensures r[AuthKey(t)] != shopId
      {
        var s := kv[AuthKey(t)];
        assert kv[ReverseKey(s)] == t;
        AuthKeyInjective(t, bound);
        ReverseKeyInjective(s, shopId);
        AuthReverseDistinct(bound, s);
      }
  }

  /** The corrected activation keeps the invariant for a non-empty token not already in use. */
  lemma RevokingActivatePreservesInvariant(kv: Kv, shopId: string, token: string)
    requires SessionInvariant(kv) && token != "" && AuthKey(token) !in kv
    ensures SessionInvariant(OnAppActivateRevoking(kv, shopId, token))
  {
    DeactivatePreservesInvariant(kv, shopId);
    var d := OnAppDeactivate(kv, shopId);
    var r := OnAppActivate(d, shopId, token);
    AuthReverseDistinct(token, shopId);
    forall t | AuthKey(t) in r
      ensures ReverseKey(r[AuthKey(t)]) in r && r[ReverseKey(r[AuthKey(t)])] == t
    {
      if t == token {
      } else {
        AuthKeyInjective(t, token);
        AuthReverseDistinct(t, shopId);
        assert AuthKey(t) in d;
        var s := d[AuthKey(t)];
        ReverseKeyInjective(s, shopId);
        AuthReverseDistinct(token, s);
      }
    }
    forall s | ReverseKey(s) in r
      ensures r[ReverseKey(s)] != ""
    {
      AuthReverseDistinct(token, s);
    }
  }
}

=== FILE: dal.dfy ===
/**
 * The search criteria the tools hand to the Admin API: an abstract query descriptor
 * (ids, fields, filters, sortings, associations, aggregations, limit, page, term)
 * built by append-only builder steps, and a reading of its filter tree over one record.
 */
module Dal {
  import opened Wrappers
  import opened JsonValue
  import opened Strings

  /** How the children of a negated group are combined before being negated. */
  datatype Operator = And | Or

  /** A filter tree: two leaf predicates and a negated group. */
  datatype Filter =
    | Equals(field: string, value: Json)
    | Contains(field: string, text: string)
    | Not(operator: Operator, queries: seq<Filter>)

  /** An aggregation: six leaves, each named and bound to a field, and a wrapper that scopes one by filters. */
  datatype Aggregation =
    | Count(name: string, field: string)
    | Max(name: string, field: string)
    | Min(name: string, field: string)
    | Stats(name: string, field: string)
    | Terms(name: string, field: string)
    | Histogram(name: string, field: string)
    | Filtered(name: string, filters: seq<Filter>, aggregation: Aggregation)

  datatype Direction = Asc | Desc

  datatype Sorting = Sorting(field: string, order: Direction)

  /** The query descriptor. An unset limit, page or term is `None`; lists keep insertion order. */
  datatype Criteria = Criteria(
    ids: seq<string>,
    fields: seq<string>,
    filters: seq<Filter>,
    sortings: seq<Sorting>,
    associations: seq<string>,
    aggregations: seq<Aggregation>,
    limit: Option<nat>,
    page: Option<nat>,
    term: Option<string>)

  /** `new Criteria(ids)`; `new Criteria()` is `NewCriteria([])`. */
  function NewCriteria(ids: seq<string>): Criteria {
    Criteria(ids, [], [], [], [], [], None, None, None)
  }

  function AddFields(c: Criteria, fs: seq<string>): Criteria {
    c.(fields := c.fields + fs)
  }

  function AddFilter(c: Criteria, f: Filter): Criteria {
    c.(filters := c.filters + [f])
  }

  function AddSorting(c: Criteria, s: Sorting): Criteria {
    c.(sortings := c.sortings + [s])
  }

  function AddAssociation(c: Criteria, a: string): Criteria {
    c.(associations := c.associations + [a])
  }

  function AddAggregation(c: Criteria, a: Aggregation): Criteria {
    c.(aggregations := c.aggregations + [a])
  }

  function SetLimit(c: Criteria, n: nat): Criteria {
    c.(limit := Some(n))
  }

  function SetPage(c: Criteria, p: nat): Criteria {
    c.(page := Some(p))
  }

  function SetTerm(c: Criteria, t: string): Criteria {
    c.(term := Some(t))
  }

  /**
   * The page and limit a descriptor ends up with do not depend on where `SetPage`
   * stands among the other builder steps.
   */
  lemma PageIndependentOfCallOrder(c: Criteria, p: nat, n: nat, fs: seq<string>, f: Filter, t: string)
    ensures SetPage(SetTerm(AddFilter(AddFields(SetLimit(c, n), fs), f), t), p)
         == SetTerm(AddFilter(AddFields(SetLimit(SetPage(c, p), n), fs), f), t)
    ensures SetPage(SetTerm(AddFilter(AddFields(SetLimit(c, n), fs), f), t), p).page == Some(p)
    ensures SetPage(SetTerm(AddFilter(AddFields(SetLimit(c, n), fs), f), t), p).limit == Some(n)
  {
  }

  /** `SetPage` commutes with every other builder step, so its position in a builder chain does not matter. */
  lemma SetPageCommutes(c: Criteria, p: nat, n: nat, fs: seq<string>, f: Filter, s: Sorting, a: string, g: Aggregation, t: string)
    ensures SetPage(AddFields(c, fs), p) == AddFields(SetPage(c, p), fs)
    ensures SetPage(AddFilter(c, f), p) == AddFilter(SetPage(c, p), f)
    ensures SetPage(AddSorting(c, s), p) == AddSorting(SetPage(c, p), s)
    ensures SetPage(AddAssociation(c, a), p) == AddAssociation(SetPage(c, p), a)
    ensures SetPage(AddAggregation(c, g), p) == AddAggregation(SetPage(c, p), g)
    ensures SetPage(SetLimit(c, n), p) == SetLimit(SetPage(c, p), n)
    ensures SetPage(SetTerm(c, t), p) == SetTerm(SetPage(c, p), t)
  {
  }

  /** A record as the backend filters it: field paths (`stateMachineState.technicalName`) mapped to values. */
  type Record = map<string, Json>

  /** Whether a filter selects a record: equality, substring match on text, negation of an AND/OR group. */
  predicate Holds(f: Filter, rec: Record)
    decreases f
  {
    match f
    case Equals(fd, v) => fd in rec && rec[fd] == v
    case Contains(fd, t) => fd in rec && rec[fd].JStr? && ContainsText(rec[fd].str, t)
    case Not(op, qs) =>
      if op == And then !(forall i :: 0 <= i < |qs| ==> Holds(qs[i], rec))
      else !(exists i :: 0 <= i < |qs| && Holds(qs[i], rec))
  }

  /** The top-level filters of a criteria are AND-combined. */
  predicate Selects(c: Criteria, rec: Record) {
    forall i :: 0 <= i < |c.filters| ==> Holds(c.filters[i], rec)
  }

  /** A negated AND group of one filter selects exactly the records the filter rejects. */
  lemma NotAndSingleNegates(f: Filter, rec: Record)
    ensures Holds(Not(And, [f]), rec) <==> !Holds(f, rec)
  {
    assert [f][0] == f;
  }

  /** Whether a criteria admits the record with primary key `id`: its id list (when set) names it, and its filters select it. */
  predicate Admits(c: Criteria, id: string, rec: Record) {
    (c.ids == [] || id in c.ids) && Selects(c, rec)
  }
}

=== FILE: general_tools.dfy ===
/**
 * The generic tools of `src/tools/general.ts`: the entity list and single-schema lookups
 * over the schema endpoint's body, and `dal_aggregate`, which maps a small filter vocabulary
 * onto the criteria filter tree and wraps the aggregation when filters are given.
 */
module GeneralTools {
  import opened Wrappers
  import opened JsonValue
  import opened Strings
  import opened Dal
  import opened Reducer

  // ----- fetch_entity_list and fetch_single_entity_schema -----

  /** `Object.keys(body || {})`: the schema body's top-level keys, none when the body is absent or falsy. */
  function FetchEntityList(body: Json): (ks: set<string>)
    ensures body.JObj? ==> ks == body.fields.Keys
    ensures !Truthy(body) ==> ks == {}
  {
    ObjectKeys(if Truthy(body) then body else JObj(map[]))
  }

  /**
   * `body[entity] || {}`: the entity's schema, or an empty object when the key is absent or
   * its value falsy. Reading a property of an absent (`null`) body throws.
   */
  function FetchSingleEntitySchema(body: Json, entity: string): (r: Result<Json>)
    ensures r.Failure? <==> body.JNull?
    ensures body.JObj? && entity in body.fields && Truthy(body.fields[entity]) ==> r == Success(body.fields[entity])
    ensures body.JObj? && entity !in body.fields ==> r == Success(JObj(map[]))
    ensures r.Success? && r.value != JObj(map[]) ==> body.JObj? && entity in body.fields && r.value == body.fields[entity]
  {
    match body
    case JNull => Failure(TypeError)
    case JObj(m) => if entity in m && Truthy(m[entity]) then Success(m[entity]) else Success(JObj(map[]))
    case _ => Success(JObj(map[]))
  }

  /**
   * The two lookups agree: an entity has a non-empty schema only if it is listed, and for an
   * object body a listed entity's schema is its entry (or `{}` when the entry is falsy).
   */
  lemma SchemaOfListedEntity(body: Json, entity: string)
    ensures FetchSingleEntitySchema(body, entity).Success? && FetchSingleEntitySchema(body, entity).value != JObj(map[])
            ==> entity in FetchEntityList(body)
    ensures body.JObj? && entity in FetchEntityList(body) ==>
              FetchSingleEntitySchema(body, entity)
              == Success(if Truthy(body.fields[entity]) then body.fields[entity] else JObj(map[]))
    ensures body.JObj? && entity !in FetchEntityList(body) ==> FetchSingleEntitySchema(body, entity) == Success(JObj(map[]))
  {
  }

  // ----- dal_aggregate -----

  datatype AggregationType = CountType | MaxType | MinType | StatsType | TermsType | HistogramType
  datatype FilterType = EqualsType | NotEqualsType | ContainsType | NotContainsType
  datatype FilterInput = FilterInput(kind: FilterType, field: string, value: string)

  /** The tool's name for each aggregation type. */
  function AggregationTypeName(t: AggregationType): string {
    match t
    case CountType => "count"
    case MaxType => "max"
    case MinType => "min"
    case StatsType => "stats"
    case TermsType => "terms"
    case HistogramType => "histogram"
  }

  /** zod's enum check: the type named by a string, if any. */
  function ParseAggregationType(s: string): (r: Option<AggregationType>)
    ensures r.Some? ==> AggregationTypeName(r.value) == s
  {
    if s == "count" then Some(CountType)
    else if s == "max" then Some(MaxType)
    else if s == "min" then Some(MinType)
    else if s == "stats" then Some(StatsType)
    else if s == "terms" then Some(TermsType)
    else if s == "histogram" then Some(HistogramType)
    else None
  }

  /** Every type's name parses back to that type: the vocabulary is exactly the six names. */
  lemma AggregationTypeRoundTrip(t: AggregationType)
    ensures ParseAggregationType(AggregationTypeName(t)) == Some(t)
  {
  }

  /** The aggregation for a type: named `order_<type>` and bound to the field. */
  function BuildAggregation(t: AggregationType, field: string): Aggregation {
    match t
    case CountType => Count("order_count", field)
    case MaxType => Max("order_max", field)
    case MinType => Min("order_min", field)
    case StatsType => Stats("order_stats", field)
    case TermsType => Terms("order_terms", field)
    case HistogramType => Histogram("order_histogram", field)
  }

  /** The type a leaf aggregation computes. */
  function KindOf(a: Aggregation): Option<AggregationType> {
    match a
    case Count(_, _) => Some(CountType)
    case Max(_, _) => Some(MaxType)
    case Min(_, _) => Some(MinType)
    case Stats(_, _) => Some(StatsType)
    case Terms(_, _) => Some(TermsType)
    case Histogram(_, _) => Some(HistogramType)
    case Filtered(_, _, _) => None
  }

  /** Each type yields a leaf of that kind, named `order_` followed by the type's name, bound to the input field. */
  lemma BuildAggregationNamesAndBinds(t: AggregationType, field: string)
    ensures KindOf(BuildAggregation(t, field)) == Some(t)
    ensures !BuildAggregation(t, field).Filtered?
    ensures BuildAggregation(t, field).name == "order_" + AggregationTypeName(t)
    ensures BuildAggregation(t, field).field == field
  {
  }

  /** The filter for one input: negations are a NOT-AND group around the matching leaf. */
  function BuildFilter(f: FilterInput): Filter {
    match f.kind
    case EqualsType => Equals(f.field, JStr(f.value))
    case NotEqualsType => Not(And, [Equals(f.field, JStr(f.value))])
    case ContainsType => Contains(f.field, f.value)
    case NotContainsType => Not(And, [Contains(f.field, f.value)])
  }

  /** What an input filter asks for, read directly from its type. */
  predicate Matches(f: FilterInput, rec: Record) {
    var equal := f.field in rec && rec[f.field] == JStr(f.value);
    var contains := f.field in rec && rec[f.field].JStr? && ContainsText(rec[f.field].str, f.value);
    match f.kind
    case EqualsType => equal
    case NotEqualsType => !equal
    case ContainsType => contains
    case NotContainsType => !contains
  }

  /** The built filter selects exactly the records the input filter asks for. */
  lemma BuildFilterMeansInput(f: FilterInput, rec: Record)
    ensures Holds(BuildFilter(f), rec) <==> Matches(f, rec)
  {
    match f.kind
    case NotEqualsType => NotAndSingleNegates(Equals(f.field, JStr(f.value)), rec);
    case NotContainsType => NotAndSingleNegates(Contains(f.field, f.value), rec);
    case _ =>
  }

  /** One filter per input, order preserved. */
  function BuildFilters(fs: seq<FilterInput>): (r: seq<Filter>)
    ensures |r| == |fs|
    ensures forall i :: 0 <= i < |fs| ==> r[i] == BuildFilter(fs[i])
  {
    seq(|fs|, i requires 0 <= i < |fs| => BuildFilter(fs[i]))
  }

  /** The aggregate request: the entity searched and the criteria sent. */
  datatype AggregateRequest = AggregateRequest(entity: string, criteria: Criteria)

  /**
   * `dal_aggregate`: limit 1 and exactly one aggregation, wrapped once as `filtered_agg`
   * whenever a filter list is given (an empty list too, since `[]` is truthy).
   */
  function DalAggregate(entity: string, t: AggregationType, field: string, filter: Option<seq<FilterInput>>): (r: AggregateRequest)
    ensures r.entity == entity
    ensures r.criteria.limit == Some(1) && |r.criteria.aggregations| == 1
    ensures r.criteria.ids == [] && r.criteria.fields == [] && r.criteria.filters == [] && r.criteria.page.None?
    ensures filter.None? ==> r.criteria.aggregations[0] == BuildAggregation(t, field)
    ensures filter.Some? ==>
              r.criteria.aggregations[0] == Filtered("filtered_agg", BuildFilters(filter.value), BuildAggregation(t, field))
  {
    var agg := BuildAggregation(t, field);
    var wrapped := if filter.Some? then Filtered("filtered_agg", BuildFilters(filter.value), agg) else agg;
    AggregateRequest(entity, AddAggregation(SetLimit(NewCriteria([]), 1), wrapped))
  }

  /** The aggregation is wrapped iff a filter list is given, and never twice; the filters keep the inputs' order and meaning. */
  lemma AggregateWrapsOnce(entity: string, t: AggregationType, field: string, filter: Option<seq<FilterInput>>, rec: Record)
    ensures var a := DalAggregate(entity, t, field, filter).criteria.aggregations[0];
            (a.Filtered? <==> filter.Some?)
            && (a.Filtered? ==> !a.aggregation.Filtered? && a.name == "filtered_agg" && |a.filters| == |filter.value|)
            && (a.Filtered? ==> forall i :: 0 <= i < |a.filters| ==> (Holds(a.filters[i], rec) <==> Matches(filter.value[i], rec)))
  {
    BuildAggregationNamesAndBinds(t, field);
    if filter.Some? {
      forall i | 0 <= i < |filter.value| ensures Holds(BuildFilters(filter.value)[i], rec) <==> Matches(filter.value[i], rec) {
        BuildFilterMeansInput(filter.value[i], rec);
      }
    }
  }

  /**
   * The reply's value: the response with its `data` key deleted, then reduced as an entity
   * (with `data` gone it is no longer an envelope).
   */
  function AggregateResponse(resp: map<string, Json>): (r: Result<Json>)
    ensures r.Success? && r.value.JObj?
    ensures r.value.fields.Keys == resp.Keys - {"data"} - VolatileKeys
    ensures forall k :: k in r.value.fields ==> r.value.fields[k] == resp[k]
  {
    SerializeLLM(JObj(resp - {"data"}))
  }
}

=== FILE: json_value.dfy ===
/** JSON values as the tools receive them from the Admin API and hand them to the client. */
module JsonValue {
  import opened Strings

  /** A JSON value. Objects are maps (key order is not modelled); numbers are integers standing for JavaScript numbers. */
  datatype Json =
    | JObj(fields: map<string, Json>)
    | JArr(items: seq<Json>)
    | JStr(str: string)
    | JNum(num: int)
    | JBool(b: bool)
    | JNull

  /** JavaScript truthiness of a JSON value (`null`, `false`, `0` and `""` are falsy; objects and arrays never are). */
  predicate Truthy(v: Json) {
    match v
    case JNull => false
    case JBool(b) => b
    case JNum(n) => n != 0
    case JStr(s) => s != ""
    case _ => true
  }

  /** `Object.keys(v)`: an object's own keys, the index strings of an array or a string, nothing for other primitives. */
  function ObjectKeys(v: Json): (ks: set<string>)
    ensures v.JObj? ==> ks == v.fields.Keys
    ensures v.JArr? ==> forall i :: 0 <= i < |v.items| ==> NatToString(i) in ks
    ensures v.JNum? || v.JBool? || v.JNull? ==> ks == {}
  {
    match v
    case JObj(m) => m.Keys
    case JArr(items) => set i | 0 <= i < |items| :: NatToString(i)
    case JStr(s) => set i | 0 <= i < |s| :: NatToString(i)
    case _ => {}
  }
}

=== FILE: mcp_agent_tools.dfy ===
/**
 * The tools `ShopwareAdminMCP.init` registers in `src/mcp/index.ts`: a list with three
 * fields whose term is ignored, a get and list that serialise without reduction, a create
 * that looks the tax record up inline, and the partial update.
 */
module McpAgentTools {
  import opened Wrappers
  import opened JsonValue
  import opened Strings
  import opened Dal
  import opened Reducer
  import opened Replies
  import opened TaxHelper
  import opened ProductTools
  import opened McpProductTools

  const AgentListFields := ["id", "productNumber", "name"]

  /** `product_list`: three fields, 50 per page, the given page; the term is ignored. */
  function AgentProductListCriteria(page: nat, term: Option<string>): (c: Criteria)
    requires page >= 1
    ensures c.fields == AgentListFields && c.limit == Some(50) && c.page == Some(page)
    ensures c.term.None? && c.ids == [] && c.filters == []
  {
    SetPage(SetLimit(AddFields(NewCriteria([]), AgentListFields), 50), page)
  }

  /** `product_get`: the same criteria as the other versions, but the hit is serialised as it came, unreduced. */
  function AgentProductGetReply(hits: seq<map<string, Json>>): (r: Reply)
    ensures |hits| == 0 ==> r == Text(ProductNotFound)
    ensures |hits| > 0 ==> r == JsonText("", JObj(hits[0]))
  {
    if |hits| == 0 then Text(ProductNotFound) else JsonText("", JObj(hits[0]))
  }

  /** The per-shop get reduces what this one prints as it came: they differ exactly by the entity reduction. */
  lemma GetRepliesDifferByReduction(hits: seq<map<string, Json>>)
    ensures |hits| == 0 ==> AgentProductGetReply(hits) == McpProductGetReply(hits) == ProductGetReply(hits)
    ensures |hits| > 0 && "data" !in hits[0] ==>
              ProductGetReply(hits) == JsonText("", ReduceEntity(AgentProductGetReply(hits).value).value)
              && McpProductGetReply(hits) == ProductGetReply(hits)
  {
  }

  datatype AgentProductCreateInput = AgentProductCreateInput(
    name: string,
    productNumber: string,
    description: string,
    taxRate: Option<int>,
    stock: Option<int>,
    netPrice: int,
    grossPrice: int)

  /** The product payload of this version: no visibility, category or media keys. */
  datatype AgentProductPayload = AgentProductPayload(
    id: string,
    productNumber: string,
    name: string,
    active: bool,
    description: string,
    taxId: string,
    stock: int,
    price: seq<Price>)

  datatype AgentProductCreateOutcome = AgentProductCreateOutcome(taxes: seq<Tax>, upserted: seq<AgentProductPayload>, reply: Reply)

  /**
   * `product_create`: the first tax record with the rate is used as is; without one a record
   * `{id, "Tax <rate>", rate}` is upserted and its id used. A rejected tax upsert is not caught,
   * so the tool fails before any product is sent; the product upsert's failure is swallowed, so
   * once the product is sent the reply always reports the creation.
   */
  function AgentProductCreate(taxes: seq<Tax>, input: AgentProductCreateInput, taxFreshId: string, taxUpsert: WriteResult,
                              id: string, upsert: WriteResult): (r: AgentProductCreateOutcome)
    ensures var rate := input.taxRate.GetOr(DefaultTaxRate);
            FirstWithRate(taxes, rate).Some? ==>
              r.taxes == taxes && |r.upserted| == 1 && r.upserted[0].taxId == taxes[FirstWithRate(taxes, rate).value].id
    ensures var rate := input.taxRate.GetOr(DefaultTaxRate);
            FirstWithRate(taxes, rate).None? && taxUpsert.Accepted? ==>
              r.taxes == taxes + [Tax(taxFreshId, TaxName(rate), rate)] && |r.upserted| == 1 && r.upserted[0].taxId == taxFreshId
    ensures var rate := input.taxRate.GetOr(DefaultTaxRate);
            FirstWithRate(taxes, rate).None? && taxUpsert.Rejected? ==>
              r.taxes == taxes && r.upserted == [] && r.reply == Fault(BackendRejected)
    ensures |r.upserted| <= 1
    ensures |r.upserted| == 1 <==> r.reply == Text(McpCreatedText(id))
    ensures |r.upserted| == 1 ==> r.upserted[0].id == id && !r.upserted[0].active
    ensures |r.upserted| == 1 ==> r.upserted[0].name == input.name && r.upserted[0].productNumber == input.productNumber
    ensures |r.upserted| == 1 ==> r.upserted[0].description == input.description
    ensures |r.upserted| == 1 ==> r.upserted[0].price == [Price(SystemCurrencyId, input.netPrice, input.grossPrice, false)]
    ensures |r.upserted| == 1 ==> r.upserted[0].stock == input.stock.GetOr(DefaultStock)
  {
    var rate := input.taxRate.GetOr(DefaultTaxRate);
    var hit := FirstWithRate(taxes, rate);
    if hit.None? && taxUpsert.Rejected? then
      AgentProductCreateOutcome(taxes, [], Fault(BackendRejected))
    else
      var tax := if hit.Some? then taxes[hit.value] else Tax(taxFreshId, TaxName(rate), rate);
      var taxes' := if hit.Some? then taxes else taxes + [tax];
      var payload := AgentProductPayload(
        id, input.productNumber, input.name, false, input.description, tax.id,
        input.stock.GetOr(DefaultStock),
        [Price(SystemCurrencyId, input.netPrice, input.grossPrice, false)]);
      AgentProductCreateOutcome(taxes', [payload], Text(McpCreatedText(id)))
  }

  /** When its tax upsert goes through, the inline lookup behaves like the corrected tax helper: the product's tax id is the persisted one. */
  lemma AgentTaxLookupIsResolve(taxes: seq<Tax>, input: AgentProductCreateInput, taxFreshId: string, id: string, upsert: WriteResult)
    ensures var r := AgentProductCreate(taxes, input, taxFreshId, Accepted, id, upsert);
            var t := ResolveTaxByRate(taxes, input.taxRate.GetOr(DefaultTaxRate), taxFreshId);
            r.taxes == t.store && |r.upserted| == 1 && r.upserted[0].taxId == t.taxId
  {
  }

  /** A rejected product upsert is swallowed: the outcome is the same as for an accepted one. */
  lemma AgentCreateSwallowsRejection(taxes: seq<Tax>, input: AgentProductCreateInput, taxFreshId: string, taxUpsert: WriteResult,
                                     id: string, e: Json)
    ensures AgentProductCreate(taxes, input, taxFreshId, taxUpsert, id, Rejected(e))
         == AgentProductCreate(taxes, input, taxFreshId, taxUpsert, id, Accepted)
  {
  }

  /**
   * Creating "Shirt" at rate 19 with no tax record at 19 adds exactly one record at 19, and
   * the inactive product references it; a second create at 19 reuses that record.
   */
  lemma CreateShirtTwiceReusesTax(taxes: seq<Tax>, t1: string, p1: string, t2: string, p2: string)
    requires forall i :: 0 <= i < |taxes| ==> taxes[i].taxRate != 19
    ensures var input := AgentProductCreateInput("Shirt", "SKU1", "", Some(19), None, 10, 12);
            var r1 := AgentProductCreate(taxes, input, t1, Accepted, p1, Accepted);
            var r2 := AgentProductCreate(r1.taxes, input, t2, Accepted, p2, Accepted);
            && r1.taxes == taxes + [Tax(t1, TaxName(19), 19)]
            && |r1.upserted| == 1 && r1.upserted[0].taxId == t1 && !r1.upserted[0].active
            && ContainsText(r1.reply.text, p1)
            && r2.taxes == r1.taxes && |r2.upserted| == 1 && r2.upserted[0].taxId == t1
  {
    var input := AgentProductCreateInput("Shirt", "SKU1", "", Some(19), None, 10, 12);
    ResolveTaxReusesRecord(taxes, 19, t1, t2);
    AgentTaxLookupIsResolve(taxes, input, t1, p1, Accepted);
    var r1 := AgentProductCreate(taxes, input, t1, Accepted, p1, Accepted);
    AgentTaxLookupIsResolve(r1.taxes, input, t2, p2, Accepted);
    McpCreatedTextNamesId(p1);
  }

  /**
   * `product_update`: the same partial payload as the per-shop version (`active` when defined,
   * `name` and `description` only when non-empty) upserted once; a rejection is not caught.
   */
  function AgentProductUpdate(input: McpProductUpdateInput, upsert: WriteResult): (r: McpProductUpdateOutcome)
    ensures |r.upserted| == 1
    ensures r.upserted[0].id == input.id && r.upserted[0].active == input.active
    ensures r.upserted[0].name.Some? <==> input.name.Some? && input.name.value != ""
    ensures r.upserted[0].name.Some? ==> r.upserted[0].name == input.name
    ensures r.upserted[0].description.Some? <==> input.description.Some? && input.description.value != ""
    ensures r.upserted[0].description.Some? ==> r.upserted[0].description == input.description
    ensures r.upserted[0].stock.None? && r.upserted[0].visibilities.None? && r.upserted[0].mediaBlock.None?
    ensures r.upserted[0].categories.None?
    ensures r.upserted == [McpProductUpdatePayload(input)]
    ensures upsert.Accepted? <==> r.reply == Text("Product updated successfully")
    ensures upsert.Rejected? ==> r.reply == Fault(BackendRejected)
  {
    McpProductUpdate(input, upsert)
  }

  /** The agent's update and the per-shop update send the same payload and give the same reply. */
  lemma AgentUpdateIsMcpUpdate(input: McpProductUpdateInput, upsert: WriteResult)
    ensures AgentProductUpdate(input, upsert) == McpProductUpdate(input, upsert)
    ensures AgentProductUpdate(input, upsert).upserted
         == [ProductUpdatePayloadOf(ProductUpdateInput(input.id, input.active, input.name, input.description, None, None, None, None), [])]
  {
    McpUpdateIsRestrictedToolsUpdate(input);
  }
}

=== FILE: mcp_category_tools.dfy ===
/**
 * The category tools of `src/mcp/tools/category.ts`: list, create, update and delete. The
 * three write tools turn a rejected write into an error text instead of throwing.
 */
module McpCategoryTools {
  import opened Wrappers
  import opened JsonValue
  import opened Dal
  import opened Reducer
  import opened Replies
  import opened ProductTools

  const CategoryListFields := ["id", "name", "parentId", "active"]

  /** `category_list`: four fields, 50 per page. */
  function CategoryListCriteria(): (c: Criteria)
    ensures c.fields == CategoryListFields && c.limit == Some(50)
    ensures c.ids == [] && c.filters == [] && c.page.None?
  {
    SetLimit(AddFields(NewCriteria([]), CategoryListFields), 50)
  }

  /** The list reply: every category without `translated` and then reduced, count and order preserved. */
  function CategoryListReply(meta: map<string, Json>, categories: seq<map<string, Json>>): Reply {
    UntranslatedListReply(meta, categories)
  }

  // ----- category_create -----

  datatype CategoryCreateInput = CategoryCreateInput(name: string, parentId: Option<string>, active: Option<bool>)

  datatype CategoryCreatePayload = CategoryCreatePayload(id: string, name: string, active: bool, parentId: Option<string>)

  /** One payload per input, in order, each with its fresh id; `active` defaults to true and `parentId` is kept only when non-empty. */
  function CategoryCreatePayloads(inputs: seq<CategoryCreateInput>, ids: seq<string>): (ps: seq<CategoryCreatePayload>)
    requires |ids| == |inputs|
    ensures |ps| == |inputs|
    ensures forall i :: 0 <= i < |inputs| ==>
              ps[i].id == ids[i] && ps[i].name == inputs[i].name && ps[i].active == inputs[i].active.GetOr(true)
    ensures forall i :: 0 <= i < |inputs| ==>
              (ps[i].parentId.Some? <==> inputs[i].parentId.Some? && inputs[i].parentId.value != "")
              && (ps[i].parentId.Some? ==> ps[i].parentId == inputs[i].parentId)
  {
    seq(|inputs|, i requires 0 <= i < |inputs| =>
      CategoryCreatePayload(ids[i], inputs[i].name, inputs[i].active.GetOr(true), IfTruthy(inputs[i].parentId)))
  }

  /** The `{id, name}` object a created category is reported as. */
  function IdName(p: CategoryCreatePayload): Json {
    JObj(map["id" := JStr(p.id), "name" := JStr(p.name)])
  }

  datatype CategoryCreateOutcome = CategoryCreateOutcome(payloads: seq<CategoryCreatePayload>, reply: Reply)

  /** `category_create`: one upsert of all payloads; on success the reply lists exactly their `{id, name}` pairs in order. */
  function CategoryCreate(inputs: seq<CategoryCreateInput>, ids: seq<string>, upsert: WriteResult): (r: CategoryCreateOutcome)
    requires |ids| == |inputs|
    ensures r.payloads == CategoryCreatePayloads(inputs, ids)
    ensures upsert.Accepted? ==> r.reply.JsonText? && r.reply.prefix == "" && r.reply.value.JArr?
    ensures upsert.Accepted? ==> |r.reply.value.items| == |inputs|
    ensures upsert.Accepted? ==> forall i :: 0 <= i < |inputs| ==>
              r.reply.value.items[i] == JObj(map["id" := JStr(ids[i]), "name" := JStr(inputs[i].name)])
    ensures upsert.Rejected? ==> r.reply == SerializedReply("Error creating categories: ", upsert.error)
  {
    var ps := CategoryCreatePayloads(inputs, ids);
    var reply := match upsert
      case Accepted => SerializedReply("", JArr(seq(|ps|, i requires 0 <= i < |ps| => IdName(ps[i]))))
      case Rejected(e) => SerializedReply("Error creating categories: ", e);
    CategoryCreateOutcome(ps, reply)
  }

  // ----- category_update -----

  datatype CategoryUpdateInput = CategoryUpdateInput(id: string, name: Option<string>, parentId: Option<string>, active: Option<bool>)

  datatype CategoryUpdatePayload = CategoryUpdatePayload(id: string, name: Option<string>, parentId: Option<string>, active: Option<bool>)

  /** One partial payload per input: `name` only when non-empty, `parentId` and `active` iff given (an empty parent id is kept). */
  function CategoryUpdatePayloads(inputs: seq<CategoryUpdateInput>): (ps: seq<CategoryUpdatePayload>)
    ensures |ps| == |inputs|
    ensures forall i :: 0 <= i < |inputs| ==>
              ps[i].id == inputs[i].id && ps[i].parentId == inputs[i].parentId && ps[i].active == inputs[i].active
    ensures forall i :: 0 <= i < |inputs| ==>
              (ps[i].name.Some? <==> inputs[i].name.Some? && inputs[i].name.value != "")
              && (ps[i].name.Some? ==> ps[i].name == inputs[i].name)
  {
    seq(|inputs|, i requires 0 <= i < |inputs| =>
      CategoryUpdatePayload(inputs[i].id, IfTruthy(inputs[i].name), inputs[i].parentId, inputs[i].active))
  }

  /** An empty name is dropped but an empty parent id is written, which moves the category to the root. */
  lemma UpdateNameVersusParent(id: string)
    ensures CategoryUpdatePayloads([CategoryUpdateInput(id, Some(""), Some(""), None)])
         == [CategoryUpdatePayload(id, None, Some(""), None)]
  {
  }

  datatype CategoryUpdateOutcome = CategoryUpdateOutcome(payloads: seq<CategoryUpdatePayload>, reply: Reply)

  /** `category_update`: one upsert of all payloads; the reply is a fixed success text or the serialised error. */
  function CategoryUpdate(inputs: seq<CategoryUpdateInput>, upsert: WriteResult): (r: CategoryUpdateOutcome)
    ensures r.payloads == CategoryUpdatePayloads(inputs)
    ensures upsert.Accepted? ==> r.reply == Text("Updated all categories successfully")
    ensures upsert.Rejected? ==> r.reply == SerializedReply("Error updating categories: ", upsert.error)
  {
    var reply := match upsert
      case Accepted => Text("Updated all categories successfully")
      case Rejected(e) => SerializedReply("Error updating categories: ", e);
    CategoryUpdateOutcome(CategoryUpdatePayloads(inputs), reply)
  }

  /** A category record after the backend applies one update payload: each given field is overwritten, the others kept. */
  function ApplyCategoryUpdate(rec: Record, p: CategoryUpdatePayload): Record {
    var r := if p.name.Some? then rec["name" := JStr(p.name.value)] else rec;
    var r := if p.parentId.Some? then r["parentId" := JStr(p.parentId.value)] else r;
    if p.active.Some? then r["active" := JBool(p.active.value)] else r
  }

  /**
   * What one update input does to a stored category: a non-empty name replaces the name, an
   * empty or absent one keeps it; a given parent id or flag is stored, an absent one kept; no
   * other field changes.
   */
  lemma UpdateAppliesInput(rec: Record, u: CategoryUpdateInput, k: string)
    ensures var after := ApplyCategoryUpdate(rec, CategoryUpdatePayloads([u])[0]);
            var renames := u.name.Some? && u.name.value != "";
            && (renames ==> "name" in after && after["name"] == JStr(u.name.value))
            && (!renames ==> ("name" in after <==> "name" in rec) && ("name" in rec ==> after["name"] == rec["name"]))
            && (u.parentId.Some? ==> "parentId" in after && after["parentId"] == JStr(u.parentId.value))
            && (u.parentId.None? ==> ("parentId" in after <==> "parentId" in rec) && ("parentId" in rec ==> after["parentId"] == rec["parentId"]))
            && (u.active.Some? ==> "active" in after && after["active"] == JBool(u.active.value))
            && (u.active.None? ==> ("active" in after <==> "active" in rec) && ("active" in rec ==> after["active"] == rec["active"]))
            && (k != "name" && k != "parentId" && k != "active" ==> (k in after <==> k in rec) && (k in rec ==> after[k] == rec[k]))
  {
    var p := CategoryUpdatePayloads([u])[0];
    assert p == CategoryUpdatePayload(u.id, IfTruthy(u.name), u.parentId, u.active);
  }

  /** Sending the same update twice leaves a category as sending it once. */
  lemma CategoryUpdateIdempotent(rec: Record, inputs: seq<CategoryUpdateInput>, i: int)
    requires 0 <= i < |inputs|
    ensures var p := CategoryUpdatePayloads(inputs)[i];
            ApplyCategoryUpdate(ApplyCategoryUpdate(rec, p), p) == ApplyCategoryUpdate(rec, p)
  {
    var p := CategoryUpdatePayloads(inputs)[i];
    var once := ApplyCategoryUpdate(rec, p);
    var twice := ApplyCategoryUpdate(once, p);
    assert twice.Keys == once.Keys;
  }

  // ----- category_delete -----

  datatype CategoryDeleteOutcome = CategoryDeleteOutcome(deleted: seq<map<string, Json>>, reply: Reply)

  /** `category_delete`: one `{id}` per id; success reports `count` as the number of ids and `deletedIds` as the ids. */
  function CategoryDelete(ids: seq<string>, delete: WriteResult): (r: CategoryDeleteOutcome)
    ensures |r.deleted| == |ids| && forall i :: 0 <= i < |ids| ==> r.deleted[i] == map["id" := JStr(ids[i])]
    ensures delete.Accepted? ==> r.reply.JsonText? && r.reply.prefix == "" && r.reply.value.JObj?
    ensures delete.Accepted? ==> r.reply.value.fields == map[
              "success" := JBool(true),
              "count" := JNum(|ids|),
              "deletedIds" := JArr(seq(|ids|, i requires 0 <= i < |ids| => JStr(ids[i])))]
    ensures delete.Rejected? ==> r.reply == SerializedReply("Error deleting categories: ", delete.error)
  {
    var deleted := seq(|ids|, i requires 0 <= i < |ids| => map["id" := JStr(ids[i])]);
    var report := JObj(map[
      "success" := JBool(true),
      "count" := JNum(|ids|),
      "deletedIds" := JArr(seq(|ids|, i requires 0 <= i < |ids| => JStr(ids[i])))]);
    var reply := match delete
      case Accepted => SerializedReply("", report)
      case Rejected(e) => SerializedReply("Error deleting categories: ", e);
    CategoryDeleteOutcome(deleted, reply)
  }

  /** On success the report counts exactly the deleted categories and lists their ids in deletion order. */
  lemma DeleteReportListsDeleted(ids: seq<string>, i: int)
    requires 0 <= i < |ids|
    ensures var r := CategoryDelete(ids, Accepted);
            var report := r.reply.value.fields;
            && report["count"] == JNum(|r.deleted|)
            && report["deletedIds"].JArr? && |report["deletedIds"].items| == |r.deleted|
            && report["deletedIds"].items[i] == r.deleted[i]["id"]
  {
  }

  /** A rejected write never becomes a fault when the backend's error is an object: each tool answers with its error text. */
  lemma RejectedWritesReplyWithText(inputs: seq<CategoryCreateInput>, ids: seq<string>, updates: seq<CategoryUpdateInput>,
                                    deleteIds: seq<string>, e: map<string, Json>)
    requires |ids| == |inputs|
    requires "data" !in e
    ensures CategoryCreate(inputs, ids, Rejected(JObj(e))).reply == JsonText("Error creating categories: ", JObj(e - VolatileKeys))
    ensures CategoryUpdate(updates, Rejected(JObj(e))).reply == JsonText("Error updating categories: ", JObj(e - VolatileKeys))
    ensures CategoryDelete(deleteIds, Rejected(JObj(e))).reply == JsonText("Error deleting categories: ", JObj(e - VolatileKeys))
  {
  }
}

=== FILE: mcp_product_tools.dfy ===
/**
 * The product tools of `src/mcp/tools/product.ts`: the list ignores its term, the
 * create payload is always inactive and has no categories or media, and the update
 * upserts a single partial payload.
 */
module McpProductTools {
  import opened Wrappers
  import opened Strings
  import opened JsonValue
  import opened Dal
  import opened Reducer
  import opened Replies
  import opened TaxHelper
  import opened ProductTools

  /** `product_list`: the same fields, limit and page as the `src/tools` version, but the term is never applied. */
  function McpProductListCriteria(page: nat, term: Option<string>): (c: Criteria)
    requires page >= 1
    ensures c.fields == ProductListFields && c.limit == Some(50) && c.page == Some(page)
    ensures c.term.None? && c.ids == [] && c.filters == []
  {
    SetPage(SetLimit(AddFields(NewCriteria([]), ProductListFields), 50), page)
  }

  /** The accepted term has no influence on the criteria, unlike the `src/tools` version which applies a non-empty one. */
  lemma McpListIgnoresTerm(page: nat, t1: Option<string>, t2: Option<string>)
    requires page >= 1
    ensures McpProductListCriteria(page, t1) == McpProductListCriteria(page, t2)
    ensures McpProductListCriteria(page, None) == ProductListCriteria(page, None)
  {
  }

  /** `product_get`: a search by the single id for name, description and price, as in the `src/tools` version. */
  function McpProductGetCriteria(id: string): (c: Criteria)
    ensures c.ids == [id] && c.fields == ["name", "description", "price"]
    ensures c.filters == [] && c.limit.None? && c.page.None? && c.term.None?
  {
    ProductGetCriteria(id)
  }

  /** `product_get`'s reply: "Product not found" without a hit, else the first hit serialised and so stripped. */
  function McpProductGetReply(hits: seq<map<string, Json>>): (r: Reply)
    ensures |hits| == 0 <==> r == Text(ProductNotFound)
    ensures |hits| > 0 ==> r == SerializedReply("", JObj(hits[0]))
    ensures |hits| > 0 && "data" !in hits[0] ==> r == JsonText("", JObj(hits[0] - VolatileKeys))
  {
    ProductGetReply(hits)
  }

  datatype McpProductCreateInput = McpProductCreateInput(
    name: string,
    productNumber: string,
    description: string,
    taxRate: Option<int>,
    stock: Option<int>,
    netPrice: int,
    grossPrice: int,
    visibilities: Option<seq<string>>)

  /** The create payload of this version: no `categories`, `media` or `coverId` keys. */
  datatype McpProductCreatePayload = McpProductCreatePayload(
    id: string,
    productNumber: string,
    name: string,
    active: bool,
    description: string,
    taxId: string,
    stock: int,
    price: seq<Price>,
    visibilities: seq<ProductVisibility>)

  /** The payload: always inactive, one unlinked price in the system currency, visibility 30 per channel or none. */
  function McpProductCreatePayloadOf(input: McpProductCreateInput, id: string, taxId: string): (p: McpProductCreatePayload)
    ensures p.id == id && p.taxId == taxId && !p.active
    ensures p.price == [Price(SystemCurrencyId, input.netPrice, input.grossPrice, false)]
    ensures p.stock == input.stock.GetOr(DefaultStock)
    ensures input.visibilities.None? ==> p.visibilities == []
    ensures input.visibilities.Some? ==> |p.visibilities| == |input.visibilities.value|
    ensures input.visibilities.Some? ==> forall i :: 0 <= i < |p.visibilities| ==>
              p.visibilities[i] == ProductVisibility(input.visibilities.value[i], DefaultVisibility)
  {
    McpProductCreatePayload(
      id, input.productNumber, input.name, false, input.description, taxId,
      input.stock.GetOr(DefaultStock),
      [Price(SystemCurrencyId, input.netPrice, input.grossPrice, false)],
      Visibilities(input.visibilities.GetOr([])))
  }

  /** This payload agrees on every shared key with the `src/tools` version's payload for an inactive product without categories or media. */
  lemma McpCreateMatchesToolsVersion(input: McpProductCreateInput, id: string, taxId: string)
    ensures var p := McpProductCreatePayloadOf(input, id, taxId);
            var q := ProductCreatePayloadOf(
              ProductCreateInput(input.name, Some(false), input.productNumber, input.description, input.taxRate,
                                 input.stock, input.netPrice, input.grossPrice, input.visibilities, None, None),
              id, taxId, []);
            p.id == q.id && p.productNumber == q.productNumber && p.name == q.name && p.active == q.active
            && p.description == q.description && p.taxId == q.taxId && p.stock == q.stock && p.price == q.price
            && p.visibilities == q.visibilities && q.categories == [] && q.mediaBlock.None?
  {
  }

  /** The text of a successful create: the id, and that the product is not yet active. */
  function McpCreatedText(id: string): string {
    "Product created with id: " + id + ". Product is not yet active"
  }

  datatype McpProductCreateOutcome = McpProductCreateOutcome(taxes: seq<Tax>, payload: McpProductCreatePayload, reply: Reply)

  /**
   * `product_create`: the tax helper's outcome `tax` (its id and the tax store it leaves) is an
   * input, since that helper is not part of this model; the payload is upserted and the id or
   * the serialised error reported.
   */
  function McpProductCreate(tax: TaxOutcome, input: McpProductCreateInput, id: string,
                            upsert: WriteResult): (r: McpProductCreateOutcome)
    ensures r.taxes == tax.store
    ensures r.payload.taxId == tax.taxId && r.payload.id == id && !r.payload.active
    ensures r.payload == McpProductCreatePayloadOf(input, id, tax.taxId)
    ensures upsert.Accepted? ==> r.reply == Text(McpCreatedText(id))
    ensures upsert.Rejected? ==> r.reply == SerializedReply("Error creating product: ", upsert.error)
  {
    var reply := match upsert
      case Accepted => Text(McpCreatedText(id))
      case Rejected(e) => SerializedReply("Error creating product: ", e);
    McpProductCreateOutcome(tax.store, McpProductCreatePayloadOf(input, id, tax.taxId), reply)
  }

  /**
   * The product references a stored tax of the requested rate exactly when the helper's id is
   * stored with that rate; with the corrected helper it always is, with the one of
   * `src/tools/helper.ts` it is not on a miss with distinct fresh ids.
   */
  lemma McpCreateTaxDependsOnHelper(taxes: seq<Tax>, input: McpProductCreateInput, freshA: string, freshB: string,
                                    id: string, upsert: WriteResult)
    ensures var rate := input.taxRate.GetOr(DefaultTaxRate);
            var r := McpProductCreate(ResolveTaxByRate(taxes, rate, freshA), input, id, upsert);
            exists i :: 0 <= i < |r.taxes| && r.taxes[i].id == r.payload.taxId && r.taxes[i].taxRate == rate
    ensures var rate := input.taxRate.GetOr(DefaultTaxRate);
            var r := McpProductCreate(GetOrCreateTaxByRate(taxes, rate, freshA, freshB), input, id, upsert);
            FirstWithRate(taxes, rate).None? && freshA != freshB && !HasId(taxes, freshA) ==> !HasId(r.taxes, r.payload.taxId)
  {
    var rate := input.taxRate.GetOr(DefaultTaxRate);
    var t := ResolveTaxByRate(taxes, rate, freshA);
    var r := McpProductCreate(t, input, id, upsert);
    assert r.taxes == t.store && r.payload.taxId == t.taxId;
    assert exists i :: 0 <= i < |t.store| && t.store[i].id == t.taxId && t.store[i].taxRate == rate;
    if FirstWithRate(taxes, rate).None? && freshA != freshB && !HasId(taxes, freshA) {
      AsWrittenReturnsUnpersistedId(taxes, rate, freshA, freshB);
    }
  }

  /** The success text names the generated id. */
  lemma McpCreatedTextNamesId(id: string)
    ensures ContainsText(McpCreatedText(id), id)
  {
    ContainsMiddle("Product created with id: ", id, ". Product is not yet active");
  }

  datatype McpProductUpdateInput = McpProductUpdateInput(
    id: string,
    active: Option<bool>,
    name: Option<string>,
    description: Option<string>)

  /** The partial payload: `id` always, `active` iff given, `name` and `description` only when non-empty, nothing else. */
  function McpProductUpdatePayload(input: McpProductUpdateInput): (p: ProductUpdatePayload)
    ensures p.id == input.id && p.active == input.active
    ensures p.name.Some? <==> input.name.Some? && input.name.value != ""
    ensures p.name.Some? ==> p.name == input.name
    ensures p.description.Some? <==> input.description.Some? && input.description.value != ""
    ensures p.description.Some? ==> p.description == input.description
    ensures p.stock.None? && p.visibilities.None? && p.categories.None? && p.mediaBlock.None?
  {
    ProductUpdatePayload(input.id, input.active, IfTruthy(input.name), IfTruthy(input.description), None, None, None, None)
  }

  /** This payload is the `src/tools` version's payload for an update that gives no stock, lists or media. */
  lemma McpUpdateIsRestrictedToolsUpdate(input: McpProductUpdateInput)
    ensures McpProductUpdatePayload(input)
         == ProductUpdatePayloadOf(ProductUpdateInput(input.id, input.active, input.name, input.description, None, None, None, None), [])
  {
  }

  datatype McpProductUpdateOutcome = McpProductUpdateOutcome(upserted: seq<ProductUpdatePayload>, reply: Reply)

  /** `product_update`: exactly one upsert of the single payload; a rejection is not caught. */
  function McpProductUpdate(input: McpProductUpdateInput, upsert: WriteResult): (r: McpProductUpdateOutcome)
    ensures |r.upserted| == 1 && r.upserted[0].id == input.id && r.upserted[0] == McpProductUpdatePayload(input)
    ensures upsert.Accepted? <==> r.reply == Text("Product updated successfully")
    ensures upsert.Rejected? ==> r.reply == Fault(BackendRejected)
  {
    McpProductUpdateOutcome(
      [McpProductUpdatePayload(input)],
      if upsert.Accepted? then Text("Product updated successfully") else Fault(BackendRejected))
  }
}

=== FILE: mcp_sales_channel_tools.dfy ===
/** The `sales_channel_list` of `src/mcp/tools/sales_channel.ts`: three fields, storefront channels, `translated` removed. */
module McpSalesChannelTools {
  import opened JsonValue
  import opened Dal
  import opened Replies
  import opened SalesChannelTools

  const McpSalesChannelFields := ["id", "name", "navigationCategoryId"]

  /** The criteria: exactly three fields and exactly one filter, on the storefront type. */
  function McpSalesChannelListCriteria(): (c: Criteria)
    ensures c.fields == McpSalesChannelFields
    ensures c.filters == [Equals("typeId", JStr(SalesChannelTypeSalesChannel))]
    ensures c.associations == [] && c.ids == [] && c.limit.None?
  {
    AddFilter(AddFields(NewCriteria([]), McpSalesChannelFields), Equals("typeId", JStr(SalesChannelTypeSalesChannel)))
  }

  /** The criteria selects exactly the channels of the storefront type. */
  lemma McpListSelectsStorefronts(rec: Record)
    ensures Selects(McpSalesChannelListCriteria(), rec) <==>
              "typeId" in rec && rec["typeId"] == JStr(SalesChannelTypeSalesChannel)
  {
    var c := McpSalesChannelListCriteria();
    assert Selects(c, rec) <==> Holds(c.filters[0], rec);
  }

  /** The reply: the search result with `translated` deleted from every channel. */
  function McpSalesChannelListReply(meta: map<string, Json>, channels: seq<map<string, Json>>): Reply {
    UntranslatedListReply(meta, channels)
  }
}

=== FILE: order_tools.dfy ===
/**
 * The order tools of `src/tools/order.ts`: the list criteria (newest first, 20 per page,
 * optional status filter), the detail criteria, and the state-transition call of
 * `order_update` with its fixed transition vocabulary.
 */
module OrderTools {
  import opened Wrappers
  import opened JsonValue
  import opened Strings
  import opened Dal
  import opened Replies

  /** The statuses `order_list` accepts as a filter. */
  datatype OrderStatus = Open | InProgress | Completed | Cancelled

  function StatusName(s: OrderStatus): string {
    match s
    case Open => "open"
    case InProgress => "in_progress"
    case Completed => "completed"
    case Cancelled => "cancelled"
  }

  /** zod's enum check for a status. */
  function ParseStatus(s: string): (r: Option<OrderStatus>)
    ensures r.Some? ==> StatusName(r.value) == s
  {
    if s == "open" then Some(Open)
    else if s == "in_progress" then Some(InProgress)
    else if s == "completed" then Some(Completed)
    else if s == "cancelled" then Some(Cancelled)
    else None
  }

  /** The status vocabulary is exactly `open, in_progress, completed, cancelled`. */
  lemma StatusVocabulary(s: string)
    ensures ParseStatus(s).Some? <==> s in {"open", "in_progress", "completed", "cancelled"}
    ensures forall st: OrderStatus :: ParseStatus(StatusName(st)) == Some(st)
  {
  }

  const OrderListFields := [
    "id", "orderNumber", "orderDateTime", "amountTotal",
    "orderCustomer.firstName", "orderCustomer.lastName", "orderCustomer.email",
    "primaryOrderDelivery.stateMachineState.technicalName",
    "primaryOrderTransaction.stateMachineState.technicalName",
    "stateMachineState.technicalName", "currency.name"]

  const OrderDetailFields := [
    "id", "orderNumber", "orderDateTime", "amountTotal",
    "orderCustomer.firstName", "orderCustomer.lastName", "orderCustomer.email",
    "primaryOrderDelivery.stateMachineState.technicalName",
    "primaryOrderTransaction.stateMachineState.technicalName",
    "stateMachineState.technicalName",
    "billingAddress.firstName", "billingAddress.lastName", "billingAddress.company",
    "billingAddress.street", "billingAddress.city", "billingAddress.zipcode", "billingAddress.country.name",
    "primaryOrderDelivery.trackingCodes",
    "primaryOrderDelivery.shippingOrderAddress.firstName",
    "primaryOrderDelivery.shippingOrderAddress.lastName",
    "primaryOrderDelivery.shippingOrderAddress.company",
    "primaryOrderDelivery.shippingOrderAddress.street",
    "primaryOrderDelivery.shippingOrderAddress.city",
    "primaryOrderDelivery.shippingOrderAddress.zipcode",
    "primaryOrderDelivery.shippingOrderAddress.country.name",
    "currency.name",
    "lineItems.referencedId", "lineItems.label", "lineItems.quantity",
    "lineItems.position", "lineItems.unitPrice", "lineItems.totalPrice"]

  /** The optional `filters` object of `order_list`. */
  datatype OrderFilters = OrderFilters(status: Option<OrderStatus>)

  /** `order_list`: newest first, 20 per page, the requested page, and a status filter iff a status is given. */
  function OrderListCriteria(page: nat, filters: Option<OrderFilters>): (c: Criteria)
    requires page >= 1
    ensures c.sortings == [Sorting("orderDateTime", Desc)]
    ensures c.limit == Some(20) && c.page == Some(page) && c.fields == OrderListFields
    ensures |c.filters| <= 1
    ensures |c.filters| == 1 <==> filters.Some? && filters.value.status.Some?
    ensures |c.filters| == 1 ==>
              c.filters[0] == Equals("stateMachineState.technicalName", JStr(StatusName(filters.value.status.value)))
  {
    var c := AddFields(SetPage(SetLimit(AddSorting(NewCriteria([]), Sorting("orderDateTime", Desc)), 20), page), OrderListFields);
    if filters.Some? && filters.value.status.Some? then
      AddFilter(c, Equals("stateMachineState.technicalName", JStr(StatusName(filters.value.status.value))))
    else c
  }

  /** With a status, the list selects exactly the orders whose state has that technical name; without one, every order. */
  lemma OrderListSelectsStatus(page: nat, filters: Option<OrderFilters>, rec: Record)
    requires page >= 1
    ensures Selects(OrderListCriteria(page, filters), rec) <==>
              (filters.Some? && filters.value.status.Some? ==>
                 "stateMachineState.technicalName" in rec
                 && rec["stateMachineState.technicalName"] == JStr(StatusName(filters.value.status.value)))
  {
    var c := OrderListCriteria(page, filters);
    if |c.filters| == 1 {
      assert Selects(c, rec) <==> Holds(c.filters[0], rec);
    }
  }

  /** `order_detail`: a search by the single id with the fixed detail field list. */
  function OrderDetailCriteria(id: string): (c: Criteria)
    ensures c.ids == [id] && c.fields == OrderDetailFields
    ensures c.filters == [] && c.limit.None? && c.page.None? && c.sortings == []
  {
    AddFields(NewCriteria([id]), OrderDetailFields)
  }

  /** The detail criteria admit the order with the requested id, whatever its contents, and no other order. */
  lemma OrderDetailAdmitsExactlyId(id: string, other: string, rec: Record)
    ensures Admits(OrderDetailCriteria(id), other, rec) <==> other == id
  {
  }

  /** The transitions `order_update` accepts. */
  datatype Transition = Cancel | Reopen | ToInProgress | ToCompleted

  function TransitionName(t: Transition): string {
    match t
    case Cancel => "cancel"
    case Reopen => "reopen"
    case ToInProgress => "in_progress"
    case ToCompleted => "completed"
  }

  /** zod's enum check for a transition. */
  function ParseTransition(s: string): (r: Option<Transition>)
    ensures r.Some? ==> TransitionName(r.value) == s
  {
    if s == "cancel" then Some(Cancel)
    else if s == "reopen" then Some(Reopen)
    else if s == "in_progress" then Some(ToInProgress)
    else if s == "completed" then Some(ToCompleted)
    else None
  }

  /** The transition vocabulary is exactly `cancel, reopen, in_progress, completed`. */
  lemma TransitionVocabulary(s: string)
    ensures ParseTransition(s).Some? <==> s in {"cancel", "reopen", "in_progress", "completed"}
    ensures forall t: Transition :: ParseTransition(TransitionName(t)) == Some(t)
  {
  }

  /** A POST to the Admin API. */
  datatype HttpPost = HttpPost(path: string)

  function TransitionPath(id: string, t: Transition): string {
    "/_action/order/" + id + "/state/" + TransitionName(t)
  }

  /** The reply of a successful `order_update`. */
  function OrderUpdatedText(id: string): string {
    "Order " + id + " updated successfully."
  }

  datatype OrderUpdateOutcome = OrderUpdateOutcome(calls: seq<HttpPost>, reply: Reply)

  /**
   * `order_update`: one transition POST iff a status is given. `post` is the backend's answer to
   * that POST; the call is not guarded, so a rejection escapes the tool instead of the reply.
   */
  function OrderUpdate(id: string, status: Option<Transition>, post: WriteResult): (r: OrderUpdateOutcome)
    ensures |r.calls| == (if status.Some? then 1 else 0)
    ensures status.Some? ==> r.calls[0] == HttpPost(TransitionPath(id, status.value))
    ensures r.reply.Text? <==> status.None? || post.Accepted?
    ensures r.reply.Text? ==> r.reply.text == OrderUpdatedText(id)
    ensures !r.reply.Text? ==> r.reply == Fault(BackendRejected)
  {
    if status.None? then OrderUpdateOutcome([], Text(OrderUpdatedText(id)))
    else
      var calls := [HttpPost(TransitionPath(id, status.value))];
      match post
      case Accepted => OrderUpdateOutcome(calls, Text(OrderUpdatedText(id)))
      case Rejected(_) => OrderUpdateOutcome(calls, Fault(BackendRejected))
  }

  /** Without a status nothing is posted, so the backend's answer cannot matter. */
  lemma NoStatusNoCall(id: string, post1: WriteResult, post2: WriteResult)
    ensures OrderUpdate(id, None, post1) == OrderUpdate(id, None, post2)
    ensures OrderUpdate(id, None, post1).calls == []
  {
  }

  lemma TransitionNameSlashFree(t: Transition)
    ensures SlashFree(TransitionName(t))
  {
    match t
    case Cancel =>
    case Reopen =>
    case ToInProgress =>
    case ToCompleted =>
  }

  /** The transition path determines the order id and the transition: distinct requests post to distinct paths. */
  lemma TransitionPathDetermines(id1: string, t1: Transition, id2: string, t2: Transition)
    ensures TransitionPath(id1, t1) == TransitionPath(id2, t2) <==> id1 == id2 && t1 == t2
  {
    var p := "/_action/order/";
    var h1 := p + id1 + "/state";
    var h2 := p + id2 + "/state";
    assert TransitionPath(id1, t1) == h1 + "/" + TransitionName(t1);
    assert TransitionPath(id2, t2) == h2 + "/" + TransitionName(t2);
    if TransitionPath(id1, t1) == TransitionPath(id2, t2) {
      TransitionNameSlashFree(t1);
      TransitionNameSlashFree(t2);
      SplitAtLastSlash(h1, TransitionName(t1), h2, TransitionName(t2));
      assert id1 == h1[|p|..|h1| - 6];
      assert id2 == h2[|p|..|h2| - 6];
      TransitionVocabulary(TransitionName(t1));
    }
  }

  /** Cancelling an order issues exactly one transition call; once accepted, the reply names the order. */
  lemma CancelIssuesOneCall(id: string)
    ensures |OrderUpdate(id, Some(Cancel), Accepted).calls| == 1
    ensures OrderUpdate(id, Some(Cancel), Accepted).calls[0].path == "/_action/order/" + id + "/state/cancel"
    ensures OrderUpdate(id, Some(Cancel), Accepted).reply.Text?
    ensures ContainsText(OrderUpdate(id, Some(Cancel), Accepted).reply.text, id)
  {
    ContainsMiddle("Order ", id, " updated successfully.");
  }
}

=== FILE: product_tools.dfy ===
/**
 * The product tools of `src/tools/product.ts`: list and get criteria, the create payload
 * (one price, visibilities, categories, media with a cover), and the update batch of
 * delete-by-filter operations followed by the product upsert. Fresh ids are parameters
 * standing for `uuid()`.
 */
module ProductTools {
  import opened Wrappers
  import opened JsonValue
  import opened Strings
  import opened Dal
  import opened Reducer
  import opened Replies
  import opened TaxHelper

  /** Shopware's `Defaults.systemCurrencyId`. */
  const SystemCurrencyId := "b7d2554b0ce847cd82f3ac9bd1c0dfca"

  /** The visibility every sales channel assignment gets. */
  const DefaultVisibility := 30

  /** zod defaults of `product_create`. */
  const DefaultTaxRate := 19
  const DefaultStock := 0

  const ProductListFields := ["id", "productNumber", "name", "stock", "price"]
  const ProductGetFields := ["name", "description", "price"]
  const ProductNotFound := "Product not found"

  datatype Price = Price(currencyId: string, net: int, gross: int, linked: bool)
  datatype ProductVisibility = ProductVisibility(salesChannelId: string, visibility: int)
  datatype CategoryRef = CategoryRef(id: string)
  datatype MediaInput = MediaInput(mediaId: string, position: Option<int>, cover: bool)
  datatype ProductMedia = ProductMedia(id: string, mediaId: string, position: int, cover: bool)

  /** The `media` list and the `coverId` set with it; a `coverId` of `None` stands for `null`. */
  datatype MediaBlock = MediaBlock(media: seq<ProductMedia>, coverId: Option<string>)

  // ----- product_list and product_get -----

  /** `product_list`: fixed fields, 50 per page, the requested page, and the term only when non-empty. */
  function ProductListCriteria(page: nat, term: Option<string>): (c: Criteria)
    requires page >= 1
    ensures c.fields == ProductListFields && c.limit == Some(50) && c.page == Some(page)
    ensures c.term.Some? <==> term.Some? && term.value != ""
    ensures c.term.Some? ==> c.term == term
    ensures c.ids == [] && c.filters == [] && c.sortings == [] && c.aggregations == [] && c.associations == []
  {
    var c := SetPage(SetLimit(AddFields(NewCriteria([]), ProductListFields), 50), page);
    if term.Some? && term.value != "" then SetTerm(c, term.value) else c
  }

  /** `product_get`: a search by the single id with three fields. */
  function ProductGetCriteria(id: string): (c: Criteria)
    ensures c.ids == [id] && c.fields == ProductGetFields
    ensures c.filters == [] && c.limit.None? && c.page.None? && c.term.None? && c.aggregations == []
  {
    AddFields(NewCriteria([id]), ProductGetFields)
  }

  /** The reply to `product_get` given the entities the search found: "Product not found" without a first one, else the first one reduced. */
  function ProductGetReply(hits: seq<map<string, Json>>): (r: Reply)
    ensures |hits| == 0 ==> r == Text(ProductNotFound)
    ensures |hits| > 0 ==> r == SerializedReply("", JObj(hits[0]))
    ensures |hits| > 0 && "data" !in hits[0] ==> r == JsonText("", JObj(hits[0] - VolatileKeys))
  {
    if |hits| == 0 then Text(ProductNotFound) else SerializedReply("", JObj(hits[0]))
  }

  // ----- shared payload pieces -----

  /** Each sales channel id becomes a visibility 30 assignment, order preserved. */
  function Visibilities(ids: seq<string>): (vs: seq<ProductVisibility>)
    ensures |vs| == |ids|
    ensures forall i :: 0 <= i < |ids| ==> vs[i] == ProductVisibility(ids[i], DefaultVisibility)
  {
    seq(|ids|, i requires 0 <= i < |ids| => ProductVisibility(ids[i], DefaultVisibility))
  }

  /** Each category id becomes an `{id}` reference, order preserved. */
  function CategoryRefs(ids: seq<string>): (cs: seq<CategoryRef>)
    ensures |cs| == |ids|
    ensures forall i :: 0 <= i < |ids| ==> cs[i] == CategoryRef(ids[i])
  {
    seq(|ids|, i requires 0 <= i < |ids| => CategoryRef(ids[i]))
  }

  /** Each media input gets its fresh id; a missing position becomes 0. */
  function BuildMedia(items: seq<MediaInput>, ids: seq<string>): (ms: seq<ProductMedia>)
    requires |ids| == |items|
    ensures |ms| == |items|
    ensures forall i :: 0 <= i < |items| ==>
              ms[i] == ProductMedia(ids[i], items[i].mediaId, items[i].position.GetOr(0), items[i].cover)
  {
    seq(|items|, i requires 0 <= i < |items| =>
      ProductMedia(ids[i], items[i].mediaId, items[i].position.GetOr(0), items[i].cover))
  }

  /** The id of the first media item marked as cover, or `None` (null) when none is. */
  function CoverId(media: seq<ProductMedia>): (r: Option<string>)
    ensures r.None? <==> forall i :: 0 <= i < |media| ==> !media[i].cover
    ensures r.Some? ==> exists i :: 0 <= i < |media| && media[i].cover && media[i].id == r.value
                                    && forall j :: 0 <= j < i ==> !media[j].cover
    decreases |media|
  {
    if |media| == 0 then None
    else if media[0].cover then Some(media[0].id)
    else
      var rest := CoverId(media[1..]);
      if rest.Some? then
        assert exists i :: 0 <= i < |media[1..]| && media[1..][i].cover && media[1..][i].id == rest.value
                           && forall j :: 0 <= j < i ==> !media[1..][j].cover;
        var i :| 0 <= i < |media[1..]| && media[1..][i].cover && media[1..][i].id == rest.value
                 && forall j :: 0 <= j < i ==> !media[1..][j].cover;
        assert media[i + 1] == media[1..][i];
        assert forall j :: 1 <= j < i + 1 ==> media[j] == media[1..][j - 1];
        rest
      else
        assert forall i :: 1 <= i < |media| ==> media[i] == media[1..][i - 1];
        rest
  }

  /** The media list and its cover, built together whenever media is given. */
  function MediaBlockOf(items: seq<MediaInput>, ids: seq<string>): (b: MediaBlock)
    requires |ids| == |items|
    ensures b.media == BuildMedia(items, ids)
    ensures b.coverId.None? <==> forall i :: 0 <= i < |items| ==> !items[i].cover
    ensures b.coverId.Some? ==> exists i :: 0 <= i < |items| && items[i].cover && ids[i] == b.coverId.value
                                             && forall j :: 0 <= j < i ==> !items[j].cover
  {
    var ms := BuildMedia(items, ids);
    MediaBlock(ms, CoverId(ms))
  }

  // ----- product_create -----

  datatype ProductCreateInput = ProductCreateInput(
    name: string,
    active: Option<bool>,
    productNumber: string,
    description: string,
    taxRate: Option<int>,
    stock: Option<int>,
    netPrice: int,
    grossPrice: int,
    visibilities: Option<seq<string>>,
    categories: Option<seq<string>>,
    media: Option<seq<MediaInput>>)

  datatype ProductCreatePayload = ProductCreatePayload(
    id: string,
    productNumber: string,
    name: string,
    active: bool,
    description: string,
    taxId: string,
    stock: int,
    price: seq<Price>,
    visibilities: seq<ProductVisibility>,
    categories: seq<CategoryRef>,
    mediaBlock: Option<MediaBlock>)

  /** The media ids supplied fit the media given (none when there is no media). */
  predicate MediaIdsFit(media: Option<seq<MediaInput>>, mediaIds: seq<string>) {
    if media.Some? then |mediaIds| == |media.value| else mediaIds == []
  }

  /** The create payload for a product with id `id` whose tax record is `taxId`. */
  function ProductCreatePayloadOf(input: ProductCreateInput, id: string, taxId: string, mediaIds: seq<string>): (p: ProductCreatePayload)
    requires MediaIdsFit(input.media, mediaIds)
    ensures p.id == id && p.taxId == taxId && p.name == input.name && p.productNumber == input.productNumber
    ensures p.description == input.description
    ensures p.active == input.active.GetOr(false) && p.stock == input.stock.GetOr(DefaultStock)
    ensures p.price == [Price(SystemCurrencyId, input.netPrice, input.grossPrice, false)]
    ensures p.visibilities == Visibilities(input.visibilities.GetOr([]))
    ensures p.categories == CategoryRefs(input.categories.GetOr([]))
    ensures p.mediaBlock.Some? <==> input.media.Some?
    ensures p.mediaBlock.Some? ==> p.mediaBlock.value == MediaBlockOf(input.media.value, mediaIds)
  {
    ProductCreatePayload(
      id, input.productNumber, input.name, input.active.GetOr(false), input.description, taxId,
      input.stock.GetOr(DefaultStock),
      [Price(SystemCurrencyId, input.netPrice, input.grossPrice, false)],
      Visibilities(input.visibilities.GetOr([])),
      CategoryRefs(input.categories.GetOr([])),
      if input.media.Some? then Some(MediaBlockOf(input.media.value, mediaIds)) else None)
  }

  /** The text of a successful create, which names the generated id. */
  function CreatedText(id: string): string {
    "Product created with id: " + id + "."
  }

  datatype ProductCreateOutcome = ProductCreateOutcome(taxes: seq<Tax>, payload: ProductCreatePayload, reply: Reply)

  /**
   * `product_create` as written: the tax comes from `getOrCreateTaxByRate`, which on a miss
   * returns `returnedTaxId` but stores the new tax under `persistedTaxId` (see the findings);
   * then the payload is upserted and the id or the serialised error is reported.
   */
  function ProductCreate(taxes: seq<Tax>, input: ProductCreateInput, returnedTaxId: string, persistedTaxId: string,
                         id: string, mediaIds: seq<string>, upsert: WriteResult): (r: ProductCreateOutcome)
    requires MediaIdsFit(input.media, mediaIds)
    ensures var rate := input.taxRate.GetOr(DefaultTaxRate);
            FirstWithRate(taxes, rate).Some? ==>
              r.taxes == taxes && r.payload.taxId == taxes[FirstWithRate(taxes, rate).value].id
    ensures var rate := input.taxRate.GetOr(DefaultTaxRate);
            FirstWithRate(taxes, rate).None? ==>
              r.taxes == taxes + [Tax(persistedTaxId, TaxName(rate), rate)] && r.payload.taxId == returnedTaxId
    ensures r.payload == ProductCreatePayloadOf(input, id, r.payload.taxId, mediaIds)
    ensures upsert.Accepted? ==> r.reply == Text(CreatedText(id))
    ensures upsert.Rejected? ==> r.reply == SerializedReply("Error creating product: ", upsert.error)
  {
    var tax := GetOrCreateTaxByRate(taxes, input.taxRate.GetOr(DefaultTaxRate), returnedTaxId, persistedTaxId);
    var payload := ProductCreatePayloadOf(input, id, tax.taxId, mediaIds);
    var reply := match upsert
      case Accepted => Text(CreatedText(id))
      case Rejected(e) => SerializedReply("Error creating product: ", e);
    ProductCreateOutcome(tax.store, payload, reply)
  }

  /** As written, a product created at a rate no tax has points at a tax that was never stored. */
  lemma ProductCreateDanglingTax(taxes: seq<Tax>, input: ProductCreateInput, returnedTaxId: string, persistedTaxId: string,
                                 id: string, mediaIds: seq<string>, upsert: WriteResult)
    requires MediaIdsFit(input.media, mediaIds)
    requires FirstWithRate(taxes, input.taxRate.GetOr(DefaultTaxRate)).None?
    requires returnedTaxId != persistedTaxId && !HasId(taxes, returnedTaxId)
    ensures var r := ProductCreate(taxes, input, returnedTaxId, persistedTaxId, id, mediaIds, upsert);
            !HasId(r.taxes, r.payload.taxId)
  {
    AsWrittenReturnsUnpersistedId(taxes, input.taxRate.GetOr(DefaultTaxRate), returnedTaxId, persistedTaxId);
  }

  /** `product_create` with the corrected tax helper: the product always points at a stored tax of its rate. */
  function ProductCreateCorrected(taxes: seq<Tax>, input: ProductCreateInput, taxFreshId: string, id: string,
                                  mediaIds: seq<string>, upsert: WriteResult): (r: ProductCreateOutcome)
    requires MediaIdsFit(input.media, mediaIds)
    ensures exists i :: 0 <= i < |r.taxes| && r.taxes[i].id == r.payload.taxId
                        && r.taxes[i].taxRate == input.taxRate.GetOr(DefaultTaxRate)
    ensures r.taxes == ResolveTaxByRate(taxes, input.taxRate.GetOr(DefaultTaxRate), taxFreshId).store
    ensures r.payload == ProductCreatePayloadOf(input, id, r.payload.taxId, mediaIds)
    ensures upsert.Accepted? ==> r.reply == Text(CreatedText(id))
    ensures upsert.Rejected? ==> r.reply == SerializedReply("Error creating product: ", upsert.error)
  {
    var tax := ResolveTaxByRate(taxes, input.taxRate.GetOr(DefaultTaxRate), taxFreshId);
    var payload := ProductCreatePayloadOf(input, id, tax.taxId, mediaIds);
    var reply := match upsert
      case Accepted => Text(CreatedText(id))
      case Rejected(e) => SerializedReply("Error creating product: ", e);
    ProductCreateOutcome(tax.store, payload, reply)
  }

  /** The correction changes nothing but the id: with one fresh id used for both, the two versions agree. */
  lemma CorrectedCreateIsSameIdCreate(taxes: seq<Tax>, input: ProductCreateInput, freshId: string, id: string,
                                      mediaIds: seq<string>, upsert: WriteResult)
    requires MediaIdsFit(input.media, mediaIds)
    ensures ProductCreate(taxes, input, freshId, freshId, id, mediaIds, upsert)
         == ProductCreateCorrected(taxes, input, freshId, id, mediaIds, upsert)
  {
  }

  /** On success the reply text contains the generated product id. */
  lemma CreateReplyNamesId(taxes: seq<Tax>, input: ProductCreateInput, returnedTaxId: string, persistedTaxId: string,
                           id: string, mediaIds: seq<string>)
    requires MediaIdsFit(input.media, mediaIds)
    ensures ProductCreate(taxes, input, returnedTaxId, persistedTaxId, id, mediaIds, Accepted).reply.Text?
    ensures ContainsText(ProductCreate(taxes, input, returnedTaxId, persistedTaxId, id, mediaIds, Accepted).reply.text, id)
  {
    ContainsMiddle("Product created with id: ", id, ".");
  }

  /** Without media the payload carries neither `media` nor `coverId`; with media and no cover item `coverId` is null. */
  lemma CreateMediaPresence(input: ProductCreateInput, id: string, taxId: string, mediaIds: seq<string>)
    requires MediaIdsFit(input.media, mediaIds)
    ensures input.media.None? ==> ProductCreatePayloadOf(input, id, taxId, mediaIds).mediaBlock.None?
    ensures input.media.Some? && (forall i :: 0 <= i < |input.media.value| ==> !input.media.value[i].cover) ==>
              ProductCreatePayloadOf(input, id, taxId, mediaIds).mediaBlock.value.coverId.None?
  {
  }

  // ----- product_update -----

  datatype ProductUpdateInput = ProductUpdateInput(
    id: string,
    active: Option<bool>,
    name: Option<string>,
    description: Option<string>,
    stock: Option<int>,
    visibilities: Option<seq<string>>,
    media: Option<seq<MediaInput>>,
    categories: Option<seq<string>>)

  /** The partial update payload: only the keys present are written. */
  datatype ProductUpdatePayload = ProductUpdatePayload(
    id: string,
    active: Option<bool>,
    name: Option<string>,
    description: Option<string>,
    stock: Option<int>,
    visibilities: Option<seq<ProductVisibility>>,
    categories: Option<seq<CategoryRef>>,
    mediaBlock: Option<MediaBlock>)

  datatype SyncAction = SyncDelete | SyncUpsert

  /** One operation of a bulk-sync batch: a keyed delete-by-filter or upsert on an entity. */
  datatype SyncOperation = SyncOperation(
    key: string,
    entity: string,
    action: SyncAction,
    payload: seq<ProductUpdatePayload>,
    criteria: seq<Filter>)

  /** `...(s && {k: s})`: a string is kept only when it is present and non-empty. */
  function IfTruthy(s: Option<string>): (r: Option<string>)
    ensures r.Some? <==> s.Some? && s.value != ""
    ensures r.Some? ==> r == s
  {
    if s.Some? && s.value != "" then s else None
  }

  /** The update payload: `active` and `stock` iff given, `name` and `description` only when non-empty, lists iff given. */
  function ProductUpdatePayloadOf(input: ProductUpdateInput, mediaIds: seq<string>): (p: ProductUpdatePayload)
    requires MediaIdsFit(input.media, mediaIds)
    ensures p.id == input.id
    ensures p.active == input.active && p.stock == input.stock
    ensures p.name.Some? <==> input.name.Some? && input.name.value != ""
    ensures p.name.Some? ==> p.name == input.name
    ensures p.description.Some? <==> input.description.Some? && input.description.value != ""
    ensures p.description.Some? ==> p.description == input.description
    ensures p.visibilities.Some? <==> input.visibilities.Some?
    ensures p.visibilities.Some? ==> p.visibilities.value == Visibilities(input.visibilities.value)
    ensures p.categories.Some? <==> input.categories.Some?
    ensures p.categories.Some? ==> p.categories.value == CategoryRefs(input.categories.value)
    ensures p.mediaBlock.Some? <==> input.media.Some?
    ensures p.mediaBlock.Some? ==> p.mediaBlock.value == MediaBlockOf(input.media.value, mediaIds)
  {
    ProductUpdatePayload(
      input.id, input.active, IfTruthy(input.name), IfTruthy(input.description), input.stock,
      if input.visibilities.Some? then Some(Visibilities(input.visibilities.value)) else None,
      if input.categories.Some? then Some(CategoryRefs(input.categories.value)) else None,
      if input.media.Some? then Some(MediaBlockOf(input.media.value, mediaIds)) else None)
  }

  /** A delete of every row of `entity` whose `productId` is the product's id. */
  function DeleteByProduct(key: string, entity: string, id: string): SyncOperation {
    SyncOperation(key, entity, SyncDelete, [], [Equals("productId", JStr(id))])
  }

  /** The sync batch: `visibility-delete` if visibilities are given, `media-delete` if media is given, then the upsert, always last. */
  function ProductUpdateOps(input: ProductUpdateInput, mediaIds: seq<string>): (ops: seq<SyncOperation>)
    requires MediaIdsFit(input.media, mediaIds)
    ensures |ops| == 1 + (if input.visibilities.Some? then 1 else 0) + (if input.media.Some? then 1 else 0)
    ensures ops[|ops| - 1] == SyncOperation("product-update", "product", SyncUpsert,
                                            [ProductUpdatePayloadOf(input, mediaIds)], [])
    ensures forall i :: 0 <= i < |ops| - 1 ==>
              ops[i].action == SyncDelete && ops[i].payload == [] && ops[i].criteria == [Equals("productId", JStr(input.id))]
    ensures input.visibilities.Some? ==> ops[0].key == "visibility-delete" && ops[0].entity == "product_visibility"
    ensures input.media.Some? ==> ops[|ops| - 2].key == "media-delete" && ops[|ops| - 2].entity == "product_media"
  {
    var visibilityDelete := if input.visibilities.Some?
      then [DeleteByProduct("visibility-delete", "product_visibility", input.id)] else [];
    var mediaDelete := if input.media.Some?
      then [DeleteByProduct("media-delete", "product_media", input.id)] else [];
    visibilityDelete + mediaDelete
      + [SyncOperation("product-update", "product", SyncUpsert, [ProductUpdatePayloadOf(input, mediaIds)], [])]
  }

  /** Every delete in the batch comes before every upsert, and there is exactly one upsert. */
  lemma DeletesPrecedeUpsert(input: ProductUpdateInput, mediaIds: seq<string>, i: int, j: int)
    requires MediaIdsFit(input.media, mediaIds)
    requires 0 <= i < |ProductUpdateOps(input, mediaIds)| && 0 <= j < |ProductUpdateOps(input, mediaIds)|
    ensures (ProductUpdateOps(input, mediaIds)[i].action == SyncDelete &&
             ProductUpdateOps(input, mediaIds)[j].action == SyncUpsert) ==> i < j
    ensures ProductUpdateOps(input, mediaIds)[j].action == SyncUpsert ==> j == |ProductUpdateOps(input, mediaIds)| - 1
  {
  }

  /** The filter of each delete selects exactly the rows belonging to the product being updated. */
  lemma DeleteSelectsProductRows(input: ProductUpdateInput, mediaIds: seq<string>, i: int, rec: Record)
    requires MediaIdsFit(input.media, mediaIds)
    requires 0 <= i < |ProductUpdateOps(input, mediaIds)| - 1
    ensures (forall k :: 0 <= k < |ProductUpdateOps(input, mediaIds)[i].criteria| ==>
               Holds(ProductUpdateOps(input, mediaIds)[i].criteria[k], rec))
            <==> "productId" in rec && rec["productId"] == JStr(input.id)
  {
    var c := ProductUpdateOps(input, mediaIds)[i].criteria;
    assert c == [Equals("productId", JStr(input.id))];
    assert Holds(c[0], rec) <==> "productId" in rec && rec["productId"] == JStr(input.id);
  }

  /** Falsy values differ by field: `active: false` and `stock: 0` are written, an empty name is dropped. */
  lemma UpdateKeepsFalsyActiveAndStock(id: string)
    ensures var p := ProductUpdatePayloadOf(ProductUpdateInput(id, Some(false), Some(""), Some(""), Some(0), None, None, None), []);
            p.active == Some(false) && p.stock == Some(0) && p.name.None? && p.description.None?
  {
  }

  datatype ProductUpdateOutcome = ProductUpdateOutcome(ops: seq<SyncOperation>, reply: Reply)

  /** `product_update`: submit the batch; a rejected sync is not caught. */
  function ProductUpdate(input: ProductUpdateInput, mediaIds: seq<string>, sync: WriteResult): (r: ProductUpdateOutcome)
    requires MediaIdsFit(input.media, mediaIds)
    ensures r.ops == ProductUpdateOps(input, mediaIds)
    ensures sync.Accepted? <==> r.reply == Text("Product updated successfully")
    ensures sync.Rejected? ==> r.reply == Fault(BackendRejected)
  {
    ProductUpdateOutcome(
      ProductUpdateOps(input, mediaIds),
      if sync.Accepted? then Text("Product updated successfully") else Fault(BackendRejected))
  }
}

=== FILE: reducer.dfy ===
/**
 * The entity reducer of `src/shopware.ts`: `reduceEntity` deletes three volatile keys
 * from the top level of one entity; `serializeLLM` applies it to every item of a
 * `{data: [...]}` envelope, or to the value itself when there is no `data` key.
 * Values stand for the JSON text `JSON.stringify` would produce from them.
 */
module Reducer {
  import opened Wrappers
  import opened JsonValue

  /** The keys `reduceEntity` deletes. */
  const VolatileKeys: set<string> := {"extensions", "_uniqueIdentifier", "apiAlias"}

  /** The exception JavaScript raises for `delete null.x`, `"k" in 5` and iterating a non-iterable. */
  const TypeError := "TypeError"

  /**
   * `reduceEntity`: deletes the volatile keys from the top level of an object and nowhere else.
   * Deleting a property of a primitive or an array is a no-op; deleting one of `null` throws.
   */
  function ReduceEntity(e: Json): (r: Result<Json>)
    ensures r.Failure? <==> e.JNull?
    ensures e.JObj? ==> r.Success? && r.value.JObj?
    ensures e.JObj? ==> r.value.fields.Keys == e.fields.Keys - VolatileKeys
    ensures e.JObj? ==> forall k :: k in r.value.fields ==> r.value.fields[k] == e.fields[k]
    ensures !e.JObj? && !e.JNull? ==> r == Success(e)
  {
    match e
    case JNull => Failure(TypeError)
    case JObj(m) => Success(JObj(m - VolatileKeys))
    case _ => Success(e)
  }

  /** No item of a list is `null`. */
  predicate NoNullItem(items: seq<Json>) {
    forall i :: 0 <= i < |items| ==> !items[i].JNull?
  }

  /** The `for (const item of result.data)` loop: every item reduced in order; a `null` item throws. */
  function ReduceItems(items: seq<Json>): (r: Result<seq<Json>>)
    ensures r.Success? <==> NoNullItem(items)
    ensures r.Success? ==> |r.value| == |items|
    ensures r.Success? ==> forall i :: 0 <= i < |items| ==> ReduceEntity(items[i]) == Success(r.value[i])
    decreases |items|
  {
    if |items| == 0 then Success([])
    else
      match ReduceEntity(items[0])
      case Failure(e) => Failure(e)
      case Success(head) =>
        match ReduceItems(items[1..])
        case Failure(e) => Failure(e)
        case Success(tail) => Success([head] + tail)
  }

  /** A value is a collection envelope when it is an object with a `data` key. */
  predicate IsEnvelope(v: Json) {
    v.JObj? && "data" in v.fields
  }

  /**
   * `serializeLLM`: an envelope gets its `data` items reduced and its own keys left alone;
   * any other object or array is reduced itself. `"data" in v` throws on a primitive or `null`,
   * and iterating a `data` that is neither an array nor a string throws; iterating a string
   * yields characters, whose deletion is a no-op.
   */
  function SerializeLLM(v: Json): (r: Result<Json>)
    ensures (v.JObj? && !IsEnvelope(v)) || v.JArr? ==> r == ReduceEntity(v)
    ensures !v.JObj? && !v.JArr? ==> r.Failure?
    ensures IsEnvelope(v) && v.fields["data"].JArr? ==> (r.Success? <==> NoNullItem(v.fields["data"].items))
    ensures IsEnvelope(v) && v.fields["data"].JStr? ==> r == Success(v)
    ensures IsEnvelope(v) && !v.fields["data"].JArr? && !v.fields["data"].JStr? ==> r.Failure?
    ensures IsEnvelope(v) && r.Success? ==> r.value.JObj? && r.value.fields.Keys == v.fields.Keys
    ensures IsEnvelope(v) && r.Success? ==> forall k :: k in v.fields && k != "data" ==> r.value.fields[k] == v.fields[k]
    ensures IsEnvelope(v) && v.fields["data"].JArr? && r.Success? ==>
              r.value.fields["data"].JArr? && |r.value.fields["data"].items| == |v.fields["data"].items|
  {
    match v
    case JObj(m) =>
      if "data" in m then
        match m["data"]
        case JArr(items) =>
          (match ReduceItems(items)
           case Failure(e) => Failure(e)
           case Success(reduced) => Success(JObj(m["data" := JArr(reduced)])))
        case JStr(_) => Success(v)
        case _ => Failure(TypeError)
      else ReduceEntity(v)
    case JArr(_) => ReduceEntity(v)
    case _ => Failure(TypeError)
  }

  /** Reducing an entity removes exactly the volatile keys and keeps every other key with its value. */
  lemma ReduceRemovesExactlyVolatile(m: map<string, Json>, k: string)
    ensures k in ReduceEntity(JObj(m)).value.fields <==> k in m && k !in VolatileKeys
    ensures k in m && k !in VolatileKeys ==> ReduceEntity(JObj(m)).value.fields[k] == m[k]
  {
  }

  /** Reduction is shallow: a nested object keeps its volatile keys. */
  lemma ReduceIsShallow()
    ensures var child := JObj(map["apiAlias" := JStr("product"), "name" := JStr("Shirt")]);
            var e := JObj(map["child" := child, "apiAlias" := JStr("product")]);
            ReduceEntity(e).value.fields == map["child" := child]
  {
    var child := JObj(map["apiAlias" := JStr("product"), "name" := JStr("Shirt")]);
    var e := JObj(map["child" := child, "apiAlias" := JStr("product")]);
    assert ReduceEntity(e).value.fields.Keys == {"child"};
  }

  /** Reducing twice is reducing once. */
  lemma ReduceIdempotent(e: Json)
    requires !e.JNull?
    ensures ReduceEntity(ReduceEntity(e).value) == ReduceEntity(e)
  {
    if e.JObj? {
      assert (e.fields - VolatileKeys) - VolatileKeys == e.fields - VolatileKeys;
    }
  }

  /** Reducing a reduced list of items again changes nothing. */
  lemma {:induction false} ReduceItemsIdempotent(items: seq<Json>)
    requires NoNullItem(items)
    ensures NoNullItem(ReduceItems(items).value)
    ensures ReduceItems(ReduceItems(items).value) == ReduceItems(items)
    decreases |items|
  {
    if |items| > 0 {
      ReduceIdempotent(items[0]);
      ReduceItemsIdempotent(items[1..]);
      var r := ReduceItems(items).value;
      assert r == [r[0]] + r[1..];
      assert r[1..] == ReduceItems(items[1..]).value;
    }
  }

  /** Every item of an envelope's `data` list is reduced, in place and in order. */
  lemma EnvelopeItemsReduced(m: map<string, Json>, items: seq<Json>, i: int)
    requires "data" in m && m["data"] == JArr(items) && NoNullItem(items)
    requires 0 <= i < |items|
    ensures SerializeLLM(JObj(m)).Success?
    ensures Success(SerializeLLM(JObj(m)).value.fields["data"].items[i]) == ReduceEntity(items[i])
  {
  }

  /** The envelope's own top-level keys are not stripped, even the volatile ones. */
  lemma EnvelopeKeysNotStripped()
    ensures var v := JObj(map["data" := JArr([]), "apiAlias" := JStr("product_search_result")]);
            SerializeLLM(v) == Success(v)
  {
    var v := JObj(map["data" := JArr([]), "apiAlias" := JStr("product_search_result")]);
    assert v.fields["data" := JArr([])] == v.fields;
  }

  /** Serialising an already-serialised value changes nothing. */
  lemma SerializeIdempotent(v: Json)
    requires SerializeLLM(v).Success?
    ensures SerializeLLM(SerializeLLM(v).value) == SerializeLLM(v)
  {
    if IsEnvelope(v) {
      var m := v.fields;
      if m["data"].JArr? {
        ReduceItemsIdempotent(m["data"].items);
        var reduced := ReduceItems(m["data"].items).value;
        assert m["data" := JArr(reduced)]["data" := JArr(reduced)] == m["data" := JArr(reduced)];
      }
    } else {
      ReduceIdempotent(v);
    }
  }

  /** A search result as the SDK hands it over: its own keys plus a `data` list of entity objects. */
  function EnvelopeOf(meta: map<string, Json>, items: seq<map<string, Json>>): Json {
    JObj(meta["data" := JArr(seq(|items|, i requires 0 <= i < |items| => JObj(items[i])))])
  }

  /** Each entity of a list with its volatile keys deleted, order and count preserved. */
  function StripAll(items: seq<map<string, Json>>): (r: seq<map<string, Json>>)
    ensures |r| == |items|
    ensures forall i :: 0 <= i < |items| ==> r[i] == items[i] - VolatileKeys
  {
    seq(|items|, i requires 0 <= i < |items| => items[i] - VolatileKeys)
  }

  /** Serialising a search result of entity objects never throws and reduces every entity, leaving the result's own keys alone. */
  lemma SerializeEnvelopeOfObjects(meta: map<string, Json>, items: seq<map<string, Json>>)
    ensures SerializeLLM(EnvelopeOf(meta, items)) == Success(EnvelopeOf(meta, StripAll(items)))
  {
    var objs := seq(|items|, i requires 0 <= i < |items| => JObj(items[i]));
    assert NoNullItem(objs);
    var reduced := ReduceItems(objs).value;
    var st := StripAll(items);
    var stripped := seq(|st|, i requires 0 <= i < |st| => JObj(st[i]));
    assert reduced == stripped by {
      forall i | 0 <= i < |items| ensures reduced[i] == stripped[i] {
        assert objs[i] == JObj(items[i]);
        assert ReduceEntity(objs[i]) == Success(reduced[i]);
        assert ReduceEntity(objs[i]) == Success(JObj(items[i] - VolatileKeys));
        assert st[i] == items[i] - VolatileKeys;
        assert stripped[i] == JObj(st[i]);
      }
    }
    var m := meta["data" := JArr(objs)];
    assert EnvelopeOf(meta, items) == JObj(m);
    assert m["data"] == JArr(objs);
    assert m["data" := JArr(reduced)] == meta["data" := JArr(stripped)];
    assert EnvelopeOf(meta, st) == JObj(meta["data" := JArr(stripped)]);
  }
}

=== FILE: replies.dfy ===
/** What a tool call hands back to the client, and what the backend answers to a write. */
module Replies {
  import opened Wrappers
  import opened JsonValue
  import opened Reducer

  /**
   * A tool reply: a plain text block, a text block made of a prefix followed by the JSON
   * text of a value, or an exception the tool does not catch (a protocol-level fault).
   */
  datatype Reply = Text(text: string) | JsonText(prefix: string, value: Json) | Fault(error: string)

  /** The backend's answer to a write: accepted, or rejected with the thrown error object. */
  datatype WriteResult = Accepted | Rejected(error: Json)

  /** The error a tool raises when a write it does not guard is rejected. */
  const BackendRejected := "backend_rejected"

  /** A text block `prefix + serializeLLM(v)`; when `serializeLLM` throws, so does the tool. */
  function SerializedReply(prefix: string, v: Json): (r: Reply)
    ensures r.JsonText? <==> SerializeLLM(v).Success?
    ensures r.JsonText? ==> r.prefix == prefix && SerializeLLM(v) == Success(r.value)
    ensures !r.JsonText? ==> r.Fault?
  {
    match SerializeLLM(v)
    case Success(w) => JsonText(prefix, w)
    case Failure(e) => Fault(e)
  }

  /**
   * The reply of a list tool that deletes `translated` from every hit before serializing the
   * search result: each item loses `translated` and the volatile keys and nothing else, in order.
   */
  function UntranslatedListReply(meta: map<string, Json>, items: seq<map<string, Json>>): (r: Reply)
    ensures r.JsonText? && r.prefix == "" && r.value.JObj? && "data" in r.value.fields && r.value.fields["data"].JArr?
    ensures |r.value.fields["data"].items| == |items|
    ensures forall i :: 0 <= i < |items| ==>
              r.value.fields["data"].items[i] == JObj(items[i] - {"translated"} - VolatileKeys)
  {
    var cleaned := seq(|items|, i requires 0 <= i < |items| => items[i] - {"translated"});
    SerializeEnvelopeOfObjects(meta, cleaned);
    SerializedReply("", EnvelopeOf(meta, cleaned))
  }
}

=== FILE: sales_channel_tools.dfy ===
/**
 * The sales channel tools of `src/tools/sales_channel.ts`: the list criteria, the per-channel
 * post-processing that lifts the first theme's id to `themeId` and drops `translated`,
 * `extensions` and `themes`, and the partial update payload.
 */
module SalesChannelTools {
  import opened Wrappers
  import opened JsonValue
  import opened Dal
  import opened Reducer
  import opened Replies

  /** Shopware's `Defaults.salesChannelTypeSalesChannel` (the storefront type). */
  const SalesChannelTypeSalesChannel := "8a243080f92e4c719546314b577cf82b"

  const SalesChannelListFields := ["id", "active", "name", "maintenance", "navigationCategoryId", "domains.url", "themes.id"]

  /** The keys the post-processing deletes from each channel. */
  const ChannelDroppedKeys: set<string> := {"translated", "extensions", "themes"}

  /** `sales_channel_list`: the fixed fields, storefront channels only, domains loaded. */
  function SalesChannelListCriteria(): (c: Criteria)
    ensures c.fields == SalesChannelListFields
    ensures c.filters == [Equals("typeId", JStr(SalesChannelTypeSalesChannel))]
    ensures c.associations == ["domains"]
    ensures c.ids == [] && c.limit.None? && c.page.None? && c.sortings == []
  {
    AddAssociation(AddFilter(AddFields(NewCriteria([]), SalesChannelListFields),
                             Equals("typeId", JStr(SalesChannelTypeSalesChannel))), "domains")
  }

  /** `channel.extensions?.themes`, `None` when it is undefined (no object `extensions`, or no `themes` key in it). */
  function ThemesOf(ch: map<string, Json>): Option<Json> {
    if "extensions" in ch && ch["extensions"].JObj? && "themes" in ch["extensions"].fields
    then Some(ch["extensions"].fields["themes"])
    else None
  }

  /**
   * `themes[0]` when `themes.length > 0`: the first item of an array, the first character of a
   * string; `None` when the length is 0 or undefined (numbers, booleans, objects).
   */
  function FirstTheme(themes: Json): Option<Json> {
    match themes
    case JArr(items) => if |items| > 0 then Some(items[0]) else None
    case JStr(s) => if |s| > 0 then Some(JStr([s[0]])) else None
    case _ => None
  }

  /** `theme.id`: reading a property of `null` throws; a missing key is undefined (`None`). */
  function IdOf(theme: Json): Result<Option<Json>> {
    match theme
    case JNull => Failure(TypeError)
    case JObj(m) => Success(if "id" in m then Some(m["id"]) else None)
    case _ => Success(None)
  }

  /** Whether the post-processing assigns `themeId` at all: `extensions.themes` is defined and truthy. */
  predicate AssignsThemeId(ch: map<string, Json>) {
    ThemesOf(ch).Some? && Truthy(ThemesOf(ch).value)
  }

  /**
   * One channel after post-processing. When `extensions.themes` is truthy, `themeId` becomes the
   * first theme's id, or undefined (so left out of the JSON text) when there is no first theme or
   * it has no id; a `null` first theme throws. Otherwise `themeId` is left as it was. Then
   * `translated`, `extensions` and `themes` are deleted.
   */
  function ShapeChannel(ch: map<string, Json>): (r: Result<map<string, Json>>)
    ensures r.Failure? <==> AssignsThemeId(ch) && FirstTheme(ThemesOf(ch).value) == Some(JNull)
    ensures r.Success? ==> r.value.Keys !! ChannelDroppedKeys
    ensures r.Success? ==> forall k :: k in ch && k !in ChannelDroppedKeys && k != "themeId" ==> k in r.value && r.value[k] == ch[k]
    ensures r.Success? ==> forall k :: k in r.value && k != "themeId" ==> k in ch
    ensures !AssignsThemeId(ch) ==> r.Success? && ("themeId" in r.value <==> "themeId" in ch)
    ensures !AssignsThemeId(ch) && "themeId" in ch ==> r.value["themeId"] == ch["themeId"]
    ensures AssignsThemeId(ch) && r.Success? ==>
              ("themeId" in r.value <==> FirstTheme(ThemesOf(ch).value).Some? && IdOf(FirstTheme(ThemesOf(ch).value).value) != Success(None))
    ensures AssignsThemeId(ch) && r.Success? && "themeId" in r.value ==>
              IdOf(FirstTheme(ThemesOf(ch).value).value) == Success(Some(r.value["themeId"]))
  {
    var base := ch - ChannelDroppedKeys;
    if !AssignsThemeId(ch) then Success(base)
    else
      match FirstTheme(ThemesOf(ch).value)
      case None => Success(base - {"themeId"})
      case Some(theme) =>
        match IdOf(theme)
        case Failure(e) => Failure(e)
        case Success(None) => Success(base - {"themeId"})
        case Success(Some(id)) => Success(base["themeId" := id])
  }

  /** Example: a channel carrying a theme list ends up with its first theme's id. */
  lemma ShapeLiftsFirstTheme(id: string)
    ensures var ext := JObj(map["themes" := JArr([JObj(map["id" := JStr("t1")]), JObj(map["id" := JStr("t2")])])]);
            var ch := map["id" := JStr(id), "extensions" := ext, "translated" := JObj(map[])];
            ShapeChannel(ch) == Success(map["id" := JStr(id), "themeId" := JStr("t1")])
  {
    var ext := JObj(map["themes" := JArr([JObj(map["id" := JStr("t1")]), JObj(map["id" := JStr("t2")])])]);
    var ch := map["id" := JStr(id), "extensions" := ext, "translated" := JObj(map[])];
    assert AssignsThemeId(ch);
    assert FirstTheme(ThemesOf(ch).value) == Some(JObj(map["id" := JStr("t1")]));
    assert ch - ChannelDroppedKeys == map["id" := JStr(id)];
  }

  /** Example: a truthy `themes` without a length clears an existing `themeId`; a `null` first theme throws. */
  lemma ShapeEdgeCases(id: string)
    ensures ShapeChannel(map["themeId" := JStr(id), "extensions" := JObj(map["themes" := JObj(map[])])]) == Success(map[])
    ensures ShapeChannel(map["extensions" := JObj(map["themes" := JArr([JNull])])]).Failure?
  {
    var ch := map["themeId" := JStr(id), "extensions" := JObj(map["themes" := JObj(map[])])];
    assert AssignsThemeId(ch);
    assert ShapeChannel(ch).value.Keys == {};
    var nullFirst := map["extensions" := JObj(map["themes" := JArr([JNull])])];
    assert AssignsThemeId(nullFirst);
  }

  /** Every channel survives the post-processing. */
  predicate AllShaped(channels: seq<map<string, Json>>) {
    forall i :: 0 <= i < |channels| ==> ShapeChannel(channels[i]).Success?
  }

  function ShapedChannels(channels: seq<map<string, Json>>): (shaped: seq<map<string, Json>>)
    requires AllShaped(channels)
    ensures |shaped| == |channels|
    ensures forall i :: 0 <= i < |channels| ==> shaped[i] == ShapeChannel(channels[i]).value
  {
    seq(|channels|, i requires 0 <= i < |channels| => ShapeChannel(channels[i]).value)
  }

  /**
   * The reply of `sales_channel_list`: every channel shaped and then reduced, count and order
   * preserved; a channel whose post-processing throws makes the whole tool throw.
   */
  function SalesChannelListReply(meta: map<string, Json>, channels: seq<map<string, Json>>): (r: Reply)
    ensures r.Fault? <==> !AllShaped(channels)
    ensures AllShaped(channels) ==> r == JsonText("", EnvelopeOf(meta, StripAll(ShapedChannels(channels))))
  {
    if AllShaped(channels) then
      var shaped := ShapedChannels(channels);
      SerializeEnvelopeOfObjects(meta, shaped);
      SerializedReply("", EnvelopeOf(meta, shaped))
    else Fault(TypeError)
  }

  /** The listed channel at position `i` is channel `i` shaped, and it has none of the dropped keys. */
  lemma ListedChannelsAreShaped(meta: map<string, Json>, channels: seq<map<string, Json>>, i: int)
    requires AllShaped(channels) && 0 <= i < |channels|
    ensures var v := SalesChannelListReply(meta, channels).value.fields["data"];
            v.JArr? && |v.items| == |channels| && v.items[i] == JObj(ShapeChannel(channels[i]).value - VolatileKeys)
            && v.items[i].fields.Keys !! (ChannelDroppedKeys + VolatileKeys)
  {
    var shaped := ShapedChannels(channels);
    assert StripAll(shaped)[i] == shaped[i] - VolatileKeys;
  }

  /** `sales_channel_update`'s payload as JSON: `id` always, `active` and `maintenance` iff given (so `false` is written). */
  function SalesChannelUpdatePayload(id: string, active: Option<bool>, maintenance: Option<bool>): (p: map<string, Json>)
    ensures "id" in p && p["id"] == JStr(id)
    ensures "active" in p <==> active.Some?
    ensures "active" in p ==> p["active"] == JBool(active.value)
    ensures "maintenance" in p <==> maintenance.Some?
    ensures "maintenance" in p ==> p["maintenance"] == JBool(maintenance.value)
    ensures p.Keys <= {"id", "active", "maintenance"}
  {
    var p := map["id" := JStr(id)];
    var p := if active.Some? then p["active" := JBool(active.value)] else p;
    if maintenance.Some? then p["maintenance" := JBool(maintenance.value)] else p
  }

  /** A boolean flag as an upsert of `p` leaves it on a record that had `prior`. */
  function FlagAfterUpsert(p: map<string, Json>, key: string, prior: Json): Json {
    if key in p then p[key] else prior
  }

  /** Upserting the payload sets each given flag and leaves each flag not given, and every other field, as it was. */
  lemma UpdatePayloadSetsOnlyGivenFlags(id: string, active: Option<bool>, maintenance: Option<bool>, oldActive: Json, oldMaintenance: Json)
    ensures var p := SalesChannelUpdatePayload(id, active, maintenance);
            && FlagAfterUpsert(p, "active", oldActive) == (if active.Some? then JBool(active.value) else oldActive)
            && FlagAfterUpsert(p, "maintenance", oldMaintenance) == (if maintenance.Some? then JBool(maintenance.value) else oldMaintenance)
    ensures var p := SalesChannelUpdatePayload(id, active, maintenance);
            forall k, prior :: k != "id" && k != "active" && k != "maintenance" ==> FlagAfterUpsert(p, k, prior) == prior
  {
  }

  datatype SalesChannelUpdateOutcome = SalesChannelUpdateOutcome(upserted: seq<map<string, Json>>, reply: Reply)

  /** `sales_channel_update`: one upsert of the payload; a rejection is not caught. */
  function SalesChannelUpdate(id: string, active: Option<bool>, maintenance: Option<bool>, upsert: WriteResult): (r: SalesChannelUpdateOutcome)
    ensures |r.upserted| == 1
    ensures r.upserted[0] == SalesChannelUpdatePayload(id, active, maintenance)
    ensures upsert.Accepted? <==> r.reply == Text("Sales channel updated successfully")
    ensures upsert.Rejected? ==> r.reply == Fault(BackendRejected)
  {
    SalesChannelUpdateOutcome(
      [SalesChannelUpdatePayload(id, active, maintenance)],
      if upsert.Accepted? then Text("Sales channel updated successfully") else Fault(BackendRejected))
  }
}

=== FILE: strings.dfy ===
/** Small facts about strings used to build keys, paths and reply texts. */
module Strings {

  function DigitChar(d: nat): char
    requires d < 10
  {
    "0123456789"[d]
  }

  /** Decimal rendering of a natural number, as JavaScript's template literals render integers. */
  function NatToString(n: nat): (s: string)
    ensures |s| >= 1
    ensures forall i :: 0 <= i < |s| ==> '0' <= s[i] <= '9'
    decreases n
  {
    if n < 10 then [DigitChar(n)] else NatToString(n / 10) + [DigitChar(n % 10)]
  }

  /** Decimal rendering of an integer, with a leading minus sign when negative. */
  function IntToString(i: int): (s: string)
    ensures |s| >= 1
    ensures i >= 0 ==> s == NatToString(i)
    ensures i < 0 ==> s[0] == '-'
  {
    if i < 0 then "-" + NatToString(-i) else NatToString(i)
  }

  predicate IsPrefix(p: string, s: string) {
    |p| <= |s| && s[..|p|] == p
  }

  /** `part` occurs somewhere in `s` as a contiguous piece. */
  predicate ContainsText(s: string, part: string)
    decreases |s|
  {
    IsPrefix(part, s) || (|s| > 0 && ContainsText(s[1..], part))
  }

  /** A piece placed between two others occurs in the concatenation. */
  lemma {:induction false} ContainsMiddle(a: string, b: string, c: string)
    ensures ContainsText(a + b + c, b)
    decreases |a|
  {
    if |a| == 0 {
      assert a + b + c == b + c;
      assert (b + c)[..|b|] == b;
    } else {
      ContainsMiddle(a[1..], b, c);
      assert (a + b + c)[1..] == a[1..] + b + c;
    }
  }

  /** Prepending a fixed prefix is injective: distinct suffixes give distinct strings. */
  lemma PrefixInjective(p: string, a: string, b: string)
    requires p + a == p + b
    ensures a == b
  {
    assert a == (p + a)[|p|..];
    assert b == (p + b)[|p|..];
  }

  predicate SlashFree(s: string) {
    forall i :: 0 <= i < |s| ==> s[i] != '/'
  }

  /** The index of the last '/' in `s`, or -1 when there is none. */
  function LastSlash(s: string): (k: int)
    ensures -1 <= k < |s|
    ensures k >= 0 ==> s[k] == '/'
    ensures forall i :: k < i < |s| ==> s[i] != '/'
    decreases |s|
  {
    if |s| == 0 then -1
    else if s[|s| - 1] == '/' then |s| - 1
    else LastSlash(s[..|s| - 1])
  }

  /** Joining with '/' a slash-free tail puts the last slash right after the head. */
  lemma {:induction false} LastSlashOfJoin(a: string, n: string)
    requires SlashFree(n)
    ensures LastSlash(a + "/" + n) == |a|
    decreases |n|
  {
    var s := a + "/" + n;
    if |n| == 0 {
      assert s == a + "/";
    } else {
      assert s[..|s| - 1] == a + "/" + n[..|n| - 1];
      assert s[|s| - 1] == n[|n| - 1];
      LastSlashOfJoin(a, n[..|n| - 1]);
    }
  }

  /** A string splits at its last '/' in one way only. */
  lemma SplitAtLastSlash(a1: string, n1: string, a2: string, n2: string)
    requires SlashFree(n1) && SlashFree(n2) && a1 + "/" + n1 == a2 + "/" + n2
    ensures a1 == a2 && n1 == n2
  {
    LastSlashOfJoin(a1, n1);
    LastSlashOfJoin(a2, n2);
    var s := a1 + "/" + n1;
    assert s[..|a1|] == a1;
    assert (a2 + "/" + n2)[..|a2|] == a2;
    assert s[|a1| + 1..] == n1;
    assert (a2 + "/" + n2)[|a2| + 1..] == n2;
  }
}

=== FILE: tax_helper.dfy ===
/**
 * `getOrCreateTaxByRate` of `src/tools/helper.ts`: look a tax record up by its rate and
 * create one named `Tax <rate>` when none exists. The store is the backend's list of tax
 * records in the order a search returns them; fresh ids stand for `uuid()` calls.
 */
module TaxHelper {
  import opened Wrappers
  import opened JsonValue
  import opened Strings
  import opened Dal

  datatype Tax = Tax(id: string, name: string, taxRate: int)

  /** The name a created tax record gets. */
  function TaxName(rate: int): string {
    "Tax " + IntToString(rate)
  }

  /** A tax record as the backend's filters see it. */
  function TaxRecord(t: Tax): Record {
    map["id" := JStr(t.id), "name" := JStr(t.name), "taxRate" := JNum(t.taxRate)]
  }

  /** The lookup criteria: one `equals("taxRate", rate)` filter and nothing else. */
  function TaxLookupCriteria(rate: int): Criteria {
    AddFilter(NewCriteria([]), Equals("taxRate", JNum(rate)))
  }

  /** The lookup holds exactly one filter, and it selects precisely the records with that rate. */
  lemma TaxLookupSelectsRate(rate: int, t: Tax)
    ensures TaxLookupCriteria(rate).filters == [Equals("taxRate", JNum(rate))]
    ensures TaxLookupCriteria(rate) == NewCriteria([]).(filters := [Equals("taxRate", JNum(rate))])
    ensures Selects(TaxLookupCriteria(rate), TaxRecord(t)) <==> t.taxRate == rate
  {
    var c := TaxLookupCriteria(rate);
    assert c.filters == [Equals("taxRate", JNum(rate))];
    if t.taxRate == rate {
      assert Holds(c.filters[0], TaxRecord(t));
    } else {
      assert !Holds(c.filters[0], TaxRecord(t));
    }
  }

  /** Position of the first record with the rate at or after `from`, which is where a search's first hit comes from. */
  function FirstWithRateFrom(store: seq<Tax>, rate: int, from: nat): (r: Option<nat>)
    requires from <= |store|
    ensures r.None? <==> forall i :: from <= i < |store| ==> store[i].taxRate != rate
    ensures r.Some? ==> from <= r.value < |store| && store[r.value].taxRate == rate
    ensures r.Some? ==> forall j :: from <= j < r.value ==> store[j].taxRate != rate
    decreases |store| - from
  {
    if from == |store| then None
    else if store[from].taxRate == rate then Some(from)
    else FirstWithRateFrom(store, rate, from + 1)
  }

  /** Position of the first record with the rate, if any. */
  function FirstWithRate(store: seq<Tax>, rate: int): (r: Option<nat>)
    ensures r.None? <==> forall i :: 0 <= i < |store| ==> store[i].taxRate != rate
    ensures r.Some? ==> r.value < |store| && store[r.value].taxRate == rate
    ensures r.Some? ==> forall j :: 0 <= j < r.value ==> store[j].taxRate != rate
  {
    FirstWithRateFrom(store, rate, 0)
  }

  /** Some record in the store carries this id. */
  predicate HasId(store: seq<Tax>, id: string) {
    exists i :: 0 <= i < |store| && store[i].id == id
  }

  /** What the helper returns and the tax store after it. */
  datatype TaxOutcome = TaxOutcome(taxId: string, store: seq<Tax>)

  /**
   * The helper as written: a hit returns the first matching id and writes nothing; a miss
   * returns the first fresh id (`returnedId`, line 29) but upserts a record carrying a
   * second one (`persistedId`, line 34).
   */
  function GetOrCreateTaxByRate(store: seq<Tax>, rate: int, returnedId: string, persistedId: string): (r: TaxOutcome)
    ensures FirstWithRate(store, rate).Some? ==>
              r == TaxOutcome(store[FirstWithRate(store, rate).value].id, store)
    ensures FirstWithRate(store, rate).None? ==>
              r.taxId == returnedId && r.store == store + [Tax(persistedId, TaxName(rate), rate)]
  {
    match FirstWithRate(store, rate)
    case Some(i) => TaxOutcome(store[i].id, store)
    case None => TaxOutcome(returnedId, store + [Tax(persistedId, TaxName(rate), rate)])
  }

  /** On the create path with two distinct fresh ids, the id handed back names no stored tax record. */
  lemma AsWrittenReturnsUnpersistedId(store: seq<Tax>, rate: int, returnedId: string, persistedId: string)
    requires FirstWithRate(store, rate).None?
    requires returnedId != persistedId && !HasId(store, returnedId)
    ensures var r := GetOrCreateTaxByRate(store, rate, returnedId, persistedId);
            !HasId(r.store, r.taxId)
  {
    var r := GetOrCreateTaxByRate(store, rate, returnedId, persistedId);
    forall i | 0 <= i < |r.store|
      ensures r.store[i].id != r.taxId
    {
      if i < |store| {
        assert r.store[i] == store[i];
      }
    }
  }

  /** Concretely: an empty store, rate 19 and fresh ids "a" then "b" return "a" but persist "b". */
  lemma AsWrittenCounterexample()
    ensures GetOrCreateTaxByRate([], 19, "a", "b") == TaxOutcome("a", [Tax("b", "Tax 19", 19)])
  {
    assert NatToString(19) == NatToString(1) + [DigitChar(9)];
    assert TaxName(19) == "Tax 19";
  }

  /** The helper as evidently intended: a miss persists and returns the same fresh id. */
  function ResolveTaxByRate(store: seq<Tax>, rate: int, newId: string): (r: TaxOutcome)
    ensures exists i :: 0 <= i < |r.store| && r.store[i].id == r.taxId && r.store[i].taxRate == rate
    ensures FirstWithRate(store, rate).Some? ==>
              r == TaxOutcome(store[FirstWithRate(store, rate).value].id, store)
    ensures FirstWithRate(store, rate).None? ==>
              r == TaxOutcome(newId, store + [Tax(newId, TaxName(rate), rate)])
  {
    match FirstWithRate(store, rate)
    case Some(i) => TaxOutcome(store[i].id, store)
    case None =>
      var s := store + [Tax(newId, TaxName(rate), rate)];
      assert s[|store|].id == newId;
      TaxOutcome(newId, s)
  }

  /** The corrected helper returns an id that a stored record with the requested rate carries. */
  lemma ResolvedIdIsPersisted(store: seq<Tax>, rate: int, newId: string)
    ensures HasId(ResolveTaxByRate(store, rate, newId).store, ResolveTaxByRate(store, rate, newId).taxId)
  {
  }

  /** A second lookup for the same rate finds the record the first one returned and writes nothing. */
  lemma ResolveTaxReusesRecord(store: seq<Tax>, rate: int, id1: string, id2: string)
    ensures var r1 := ResolveTaxByRate(store, rate, id1);
            ResolveTaxByRate(r1.store, rate, id2) == r1
  {
    var r1 := ResolveTaxByRate(store, rate, id1);
    if FirstWithRate(store, rate).None? {
      var s := r1.store;
      assert s[|store|].taxRate == rate;
      var k := FirstWithRate(s, rate);
      assert k.Some?;
      assert forall i :: 0 <= i < |store| ==> s[i] == store[i];
      assert k.value == |store|;
    }
  }
}

=== FILE: theme_tools.dfy ===
/** `theme_config_change` of `src/tools/theme.ts`: one PATCH of three colour settings to the theme's action endpoint. */
module ThemeTools {
  import opened Wrappers
  import opened JsonValue
  import opened Replies

  /** zod defaults of the three colours. */
  const DefaultBrandPrimary := "#7a9ccd"
  const DefaultBrandSecondary := "#7a9ccd"
  const DefaultBackground := "#ffffff"

  const ThemePathPrefix := "_action/theme/"
  const ThemePathSuffix := "?reset=true&validate=true"

  datatype ThemeConfigInput = ThemeConfigInput(
    salesChannelId: string,
    themeId: string,
    brandPrimaryColor: Option<string>,
    brandSecondaryColor: Option<string>,
    brandBackgroundColor: Option<string>)

  /** A PATCH to the Admin API. */
  datatype HttpPatch = HttpPatch(path: string, body: Json)

  function ThemePath(themeId: string): string {
    ThemePathPrefix + themeId + ThemePathSuffix
  }

  /** Recovers the theme id from a request path, when the path has the action's shape. */
  function ThemeIdOfPath(path: string): Option<string> {
    if |path| >= |ThemePathPrefix| + |ThemePathSuffix|
       && path[..|ThemePathPrefix|] == ThemePathPrefix
       && path[|path| - |ThemePathSuffix|..] == ThemePathSuffix
    then Some(path[|ThemePathPrefix|..|path| - |ThemePathSuffix|])
    else None
  }

  /** The request path carries the theme id between the fixed prefix and the reset-and-validate query. */
  lemma ThemePathRoundTrip(themeId: string)
    ensures ThemeIdOfPath(ThemePath(themeId)) == Some(themeId)
  {
    var p := ThemePath(themeId);
    assert p[..|ThemePathPrefix|] == ThemePathPrefix;
    assert p[|p| - |ThemePathSuffix|..] == ThemePathSuffix;
    assert p[|ThemePathPrefix|..|p| - |ThemePathSuffix|] == themeId;
  }

  /** A `{value}` setting. */
  function Setting(v: string): Json {
    JObj(map["value" := JStr(v)])
  }

  /** The request: the theme's action path and a config of exactly the three colour keys, each carrying its input or default. */
  function ThemeConfigChange(input: ThemeConfigInput): (r: HttpPatch)
    ensures ThemeIdOfPath(r.path) == Some(input.themeId)
    ensures r.body.JObj? && r.body.fields.Keys == {"config"} && r.body.fields["config"].JObj?
    ensures var config := r.body.fields["config"].fields;
            config.Keys == {"sw-color-brand-primary", "sw-color-brand-secondary", "sw-background-color"}
            && config["sw-color-brand-primary"] == Setting(input.brandPrimaryColor.GetOr(DefaultBrandPrimary))
            && config["sw-color-brand-secondary"] == Setting(input.brandSecondaryColor.GetOr(DefaultBrandSecondary))
            && config["sw-background-color"] == Setting(input.brandBackgroundColor.GetOr(DefaultBackground))
  {
    ThemePathRoundTrip(input.themeId);
    HttpPatch(
      ThemePath(input.themeId),
      JObj(map["config" := JObj(map[
        "sw-color-brand-primary" := Setting(input.brandPrimaryColor.GetOr(DefaultBrandPrimary)),
        "sw-color-brand-secondary" := Setting(input.brandSecondaryColor.GetOr(DefaultBrandSecondary)),
        "sw-background-color" := Setting(input.brandBackgroundColor.GetOr(DefaultBackground))])]))
  }

  /** The tool's reply, the same whatever the input. */
  const ThemeChangedText := "Changed the theme color, it may take a few minutes until the changes are visible."

  datatype ThemeConfigOutcome = ThemeConfigOutcome(request: HttpPatch, reply: Reply)

  /** The whole tool: the PATCH is sent, and its rejection is not caught. */
  function ThemeConfigChangeTool(input: ThemeConfigInput, patch: WriteResult): (r: ThemeConfigOutcome)
    ensures ThemeIdOfPath(r.request.path) == Some(input.themeId)
    ensures r.request == ThemeConfigChange(input)
    ensures patch.Accepted? <==> r.reply == Text(ThemeChangedText)
    ensures patch.Rejected? ==> r.reply == Fault(BackendRejected)
  {
    ThemeConfigOutcome(ThemeConfigChange(input), if patch.Accepted? then Text(ThemeChangedText) else Fault(BackendRejected))
  }

  /** The sales channel id is accepted but has no influence on the request. */
  lemma SalesChannelIdIgnored(input: ThemeConfigInput, other: string)
    ensures ThemeConfigChange(input.(salesChannelId := other)) == ThemeConfigChange(input)
  {
  }

  /** With no colours given, the defaults are sent. */
  lemma DefaultColoursSent(salesChannelId: string, themeId: string)
    ensures var c := ThemeConfigChange(ThemeConfigInput(salesChannelId, themeId, None, None, None)).body.fields["config"].fields;
            c["sw-color-brand-primary"] == Setting("#7a9ccd") && c["sw-color-brand-secondary"] == Setting("#7a9ccd")
            && c["sw-background-color"] == Setting("#ffffff")
  {
  }
}

=== FILE: wrappers.dfy ===
/** Optional values and results with an error, shared by every module of the model. */
module Wrappers {

  /** A value that may be absent: an optional tool input or an optional payload key. */
  datatype Option<+T> = None | Some(value: T) {

    /** The value, or `default` when absent (JavaScript's `??` and zod's `.default`). */
    function GetOr(default: T): T {
      match this
      case Some(v) => v
      case None => default
    }
  }

  /** The outcome of a step that JavaScript may abort by throwing; the error names the exception. */
  datatype Result<+T> = Success(value: T) | Failure(error: string)
}
